=== FILE: README.md ===
# Smart hood controller: decision engine

A model of the decision engine of `Shelly_X_Smart_Hood_Controller.js`. This is a
script for a Shelly relay module that drives a four-speed kitchen hood from the
temperature and humidity read inside the hood and in the room. Once per poll it
does the following:

- smooths the four readings with an exponential moving average and appends the
  smoothed sample to a 20-entry history;
- respects a fresh manual override and a 90 s lockout after every speed change;
- then runs these steps in order: the cooldown interrupt, the entry into
  cooldown when the heat signal disappears, the forgotten-boil and
  burning-sauce alarms, the cooldown ramp-down, and the hysteretic
  Off/Low/Med/High speed machine.

The manual speed slider and the restore of the persisted override/cooldown
fields at boot are modelled too.

The project has these modules:

- `Config` (`config.dfy`): every threshold, window and timing constant of
  `CONFIG` that the engine reads, plus the double-press delay (which only
  the relay timing left out below uses). Readings and thresholds are `real`; times are whole seconds.
- `History` (`history.dfy`) covers three things:
  - the EMA step and its convergence on a constant input;
  - the bounded history (`Keep`, `Push`), with the proof that any sequence of
    pushes keeps exactly the newest 20 samples in order;
  - the proof that pushing keeps the history chronological.
- `SlopeCalc` (`slope.dfy`): the backward scan for the window's start sample
  and the slope as a function. On a linearly growing field the slope is exactly
  its rate, and on a non-decreasing field it is never negative.
- `Engine` (`engine.dfy`): the controller's `st` and `alarm` records as one
  value, `HoodState`, with one function per operation.
  - The contract of each single operation (`SetSpeed`, `BeginCooldown`,
    `HandleCooldown`, `AlarmRaise`, `AlarmClear`, `RaiseOnHazard`,
    `EvaluateAlarms`, `SpeedStep`, `Record`, `Interrupt`, `HeatLoss`,
    `Slider`, `Restore`) states the conditions under which each field it
    touches changes and to what, and the fields it leaves alone. The speed
    stamps and relay presses of one call of the speed setter are stated
    once, by the predicate `SpeedSetBy`.
  - `Decide` and `Cycle` chain several of these. Their own contracts state
    only the invariant, the stamp rule and the fields they may touch. What
    they do in each case is proved by the lemmas in `EngineProps`.
  - `Cycle` is one whole poll.
  - The relays are represented by `relayLog`, the sequence of relay lines
    pressed.
- `EngineProps` (`engine_props.dfy`): properties that span several operations
  or cycles.
  - Each behavioural property is proved first for the post-gate part of a
    cycle (`Decide...`), then for a whole `Cycle`.
- `Controller` (`controller.dfy`): the class `HoodController`. Its fields
  mirror `st` and `alarm`, and its methods update them in place as the script
  does, with the same branches and loops.
  - Each method is proved to leave `Model()` exactly as the matching `Engine`
    function says.
  - `Slope` is proved equal to `SlopeOf`.

The model follows the code as written, including where it behaves differently
from what one might expect:

- An expired manual override is cleared, and the same cycle goes on into the
  automatic logic. The cycle does not stop there.
- The 90 s lockout comes before the alarm checks, so it delays alarms too.
- One cycle can change the speed several times. Heat-loss cooldown entry,
  alarm raise, alarm clear and the cooldown step each call the speed setter.
  For example, a light cooldown can be entered (the fan drops to Low) and left (the fan goes Off) in the
  same cycle (`LowThenOffInOneCycle`). An alarm can be raised and cleared in
  the same cycle, ending at High (`RaisedAndClearedInOneCycle`).
- `lastOn` moves on every change to a non-zero speed, not only when the fan
  turns on.
- The speed machine has no rule out of Turbo. Turbo is left by an alarm clear
  (to High), by the heat-loss entry into cooldown, which drops the fan to Med
  or Low even while the alarm stays active (`HeatLossLeavesTurbo`), and by the
  slider.
- The cooldown step acts only at Med and Low. A cooldown flag restored at boot
  while the fan is Off therefore blocks the automatic start-up until new cooking
  activity interrupts it (`RestoredCooldownAtOffStalls`) or the slider is moved.
- The script reads the clock several times per cycle. The model uses one time
  `now` per cycle.
- The script computes the short-window slopes and the differentials before the
  gates, but only the dashboard and the poll log use them there. The model computes them after
  the gates, in `HoodController.Decide`. The history does not change in
  between, so the values are the same.

## Model

| member | source | states |
|---|---|---|
| History.Ema | Shelly_X_Smart_Hood_Controller.js:305 | with no previous value the raw value; otherwise the distance to the raw value is the previous distance times 1 - alpha, so the result lies between the previous and the raw value |
| History.EmaConverges | Shelly_X_Smart_Hood_Controller.js:305 | on a constant input, the distance to the input after n steps is the starting distance shrunk n times by 1 - alpha; it never grows and never changes sign |
| History.ShrunkBound | Shelly_X_Smart_Hood_Controller.js:305 | after n smoothing steps the distance to a constant input, times 1 + alpha * n, is at most the starting distance |
| History.EmaWithin | Shelly_X_Smart_Hood_Controller.js:305 | a constant input brings the smoothed value within any eps > 0 of the input after every n with n * alpha * eps at least the starting distance |
| History.EmaFirstExact | Shelly_X_Smart_Hood_Controller.js:305 | starting unset, the first smoothed value equals the input, and a constant input keeps it there |
| History.Keep | Shelly_X_Smart_Hood_Controller.js:311 | the retained window is the newest min(len, 20) entries, a suffix of the input |
| History.Push | Shelly_X_Smart_Hood_Controller.js:310-311 | after a push the history has at most 20 entries and ends with the new sample; below capacity it is the old history plus the sample, at capacity only the oldest entry is dropped |
| History.PushAllKeepsNewest | Shelly_X_Smart_Hood_Controller.js:307-311 | any sequence of pushes leaves exactly the newest 20 of all entries recorded, oldest first |
| History.PushChronological | Shelly_X_Smart_Hood_Controller.js:308-311 | pushing a sample no older than the newest keeps the timestamps non-decreasing |
| SlopeCalc.ScanBack | Shelly_X_Smart_Hood_Controller.js:317-319 | the backward scan stops at the first index whose sample is at least `sec` older than the newest, or falls to index 0 when none is |
| SlopeCalc.SlopeOf | Shelly_X_Smart_Hood_Controller.js:314-323 | 0 with fewer than two samples, when the start sample is not strictly older than the newest, or when either value is missing; otherwise the slope times the elapsed minutes is exactly the change of the field between the start and the newest sample |
| SlopeCalc.StartIndex | Shelly_X_Smart_Hood_Controller.js:316-319 | the start sample is the newest sample other than the last that reaches back `sec` seconds, or the oldest sample when none does |
| SlopeCalc.SlopeOfLinear | Shelly_X_Smart_Hood_Controller.js:320-322 | on a field that grows linearly in time, the slope is exactly its rate per minute whenever the window holds elapsed time |
| SlopeCalc.SlopeOfMonotone | Shelly_X_Smart_Hood_Controller.js:314-323 | on a present, non-decreasing field the slope is never negative, including the 0 returned with no signal |
| Engine.Initial | Shelly_X_Smart_Hood_Controller.js:110-120 | the boot state: fan Off, empty history, no cooldown and no alarm, invariant holding |
| Engine.Presses | Shelly_X_Smart_Hood_Controller.js:271-292 | a non-zero target presses its own line once; going Off presses the Low line once from Low and twice from any other speed |
| Engine.SetSpeed | Shelly_X_Smart_Hood_Controller.js:253-293 | the target is clamped to 0..4; an unchanged speed without a manual stop changes nothing; otherwise lastChange := now, lastOn := now exactly when the new speed is non-zero, the relay presses are appended, and nothing else changes |
| Engine.BeginCooldown | Shelly_X_Smart_Hood_Controller.js:349-357 | a no-op while a cooldown runs; otherwise it starts the cooldown at now, Heavy with Med exactly when the temperature or humidity differential reaches its threshold, else Light with Low; a changed speed stamps lastChange with now, stamps lastOn when the new speed is non-zero and presses the relays for that change, and an unchanged speed leaves stamps and relays alone; no other field changes |
| Engine.HandleCooldown | Shelly_X_Smart_Hood_Controller.js:359-379 | Med drops to Low once the hold time has passed and changes nothing before it; Low goes Off and ends the cooldown on the stable-differential exit, the early fast-cooling exit or the hard cap, and changes nothing otherwise; nothing happens at Off, High or Turbo; a changed speed stamps lastChange with now, stamps lastOn when the new speed is non-zero and presses the relays for that change, and an unchanged speed leaves stamps and relays alone |
| Engine.AlarmRaise | Shelly_X_Smart_Hood_Controller.js:326-336 | blocked (nothing changes) while an alarm is active or within the re-arm delay of the last clear; otherwise it sets the alarm's kind and start time and the fan to Turbo; a changed speed stamps lastChange with now, stamps lastOn when the new speed is non-zero and presses the relays for that change, and an unchanged speed leaves stamps and relays alone; no other field changes |
| Engine.AlarmClear | Shelly_X_Smart_Hood_Controller.js:338-346 | a no-op with no alarm; otherwise it clears the alarm, stamps the clear time and sets the fan to High; a changed speed stamps lastChange with now, stamps lastOn when the new speed is non-zero and presses the relays for that change, and an unchanged speed leaves stamps and relays alone; no other field changes |
| Engine.RaiseOnHazard | Shelly_X_Smart_Hood_Controller.js:419-425 | when no alarm is active and the fan has been on long enough, the boil pattern raises a forgotten-boil alarm, otherwise the sauce pattern raises a burning-sauce alarm; in every other case nothing changes |
| Engine.EvaluateAlarms | Shelly_X_Smart_Hood_Controller.js:419-431 | with no alarm active on entry the result is the hazard raise, followed by the alarm clear when the clear pattern shows; an alarm active on entry is cleared (through the alarm clear) exactly when the clear pattern shows and nothing changes otherwise; an alarm still active afterwards means the clear pattern did not show; Turbo after the step means the fan was at Turbo or an alarm was freshly raised; only the speed with its stamps and relays and the alarm fields change |
| Engine.SpeedStep | Shelly_X_Smart_Hood_Controller.js:434-455 | the speed moves by at most one level and never to Turbo, and Low never goes Off; Turbo is left alone; Off goes to Low exactly on a start-up signal; Low goes to Med exactly on an up signal; High goes to Med exactly when stable for 150 s and the High-exit bounds hold; Med goes to Low exactly when stable and all three Med-exit bounds hold, and to High exactly when it does not step down, a lid is not likely and the Med-to-High signal shows; a step without a transition changes nothing; a changed speed stamps lastChange with now, stamps lastOn when the new speed is non-zero and presses the relays for that change, and an unchanged speed leaves stamps and relays alone |
| Engine.Record | Shelly_X_Smart_Hood_Controller.js:307-311 | the four smoothed values are the EMA step of each reading, the history is the old one with the new sample stamped now pushed, and nothing else changes |
| Engine.Interrupt | Shelly_X_Smart_Hood_Controller.js:410-414 | only the cooldown flag may change; a cooldown is cancelled exactly when one of the slopes shows new activity, and the state is untouched otherwise |
| Engine.HeatLoss | Shelly_X_Smart_Hood_Controller.js:416-417 | with no cooldown running, the heat signal gone and the fan on, the result is the cooldown entry; otherwise nothing changes; afterwards a cooldown runs exactly when one already ran or that entry happened, and the speed can only have changed to Low or Med; a changed speed stamps lastChange with now, stamps lastOn when the new speed is non-zero and presses the relays for that change, and an unchanged speed leaves stamps and relays alone |
| Engine.Decide | Shelly_X_Smart_Hood_Controller.js:410-455 | the invariant holds; the last-change stamp is kept or moved to now and is moved whenever the speed changes; only the speed with its stamps and relay presses, the cooldown fields and the alarm fields change |
| Engine.Cycle | Shelly_X_Smart_Hood_Controller.js:382-456 | a whole poll keeps the invariant and leaves the history that recording the sample gives |
| Engine.Slider | Shelly_X_Smart_Hood_Controller.js:188-209 | a value equal to the speed is ignored; any other cancels the cooldown; 0 clears the override, keeps its start time and stops the fan; 1..4 sets the override, its start time and that speed; a changed speed stamps lastChange with now, stamps lastOn when the new speed is non-zero and presses the relays for that change, and an unchanged speed leaves stamps and relays alone; only the speed with its stamps and relays, the cooldown flag and the override fields change |
| Engine.Restore | Shelly_X_Smart_Hood_Controller.js:142-153 | a missing blob or one whose manual timestamp is an hour old or older changes nothing; a fresh one sets exactly the five saved fields to its values |
| EngineProps.Gated | Shelly_X_Smart_Hood_Controller.js:398-403 | the state the decision runs on is smoothed, keeps the invariant and has the override flag cleared |
| EngineProps.OverrideHolds | Shelly_X_Smart_Hood_Controller.js:398-405 | with a fresh manual override a cycle only records the sample |
| EngineProps.LockoutHolds | Shelly_X_Smart_Hood_Controller.js:408 | within 90 s of the last speed change a cycle only records the sample and drops an expired override flag |
| EngineProps.CycleDecides | Shelly_X_Smart_Hood_Controller.js:398-417 | with both gates open a cycle is the decision on the recorded state and the signals measured on it |
| EngineProps.CycleStamped | Shelly_X_Smart_Hood_Controller.js:267-268 | a cycle that changes the speed stamps lastChange with now; otherwise lastChange is kept or moved to now |
| EngineProps.Run | Shelly_X_Smart_Hood_Controller.js:382-456 | a sequence of polls, one cycle each, keeps the invariant |
| EngineProps.LockedRun | Shelly_X_Smart_Hood_Controller.js:408 | cycles that all fall within 90 s of the last speed change keep the speed and its time stamp |
| EngineProps.ChangeRestartsLockout | Shelly_X_Smart_Hood_Controller.js:267-268 | a cycle that changes the speed stamps lastChange with its own time, which restarts the 90 s lockout |
| EngineProps.NoTwoChangesWithinLockout | Shelly_X_Smart_Hood_Controller.js:408 | after a cycle that changed the speed, no run of cycles within the next 90 s changes it again |
| EngineProps.DecideNoRaiseWithinRearmDelay | Shelly_X_Smart_Hood_Controller.js:328 | within the re-arm delay after a clear, no signals can raise an alarm in the decision step |
| EngineProps.NoRaiseWithinRearmDelay | Shelly_X_Smart_Hood_Controller.js:328 | within the re-arm delay after a clear, no cycle raises an alarm |
| EngineProps.DecideHeatLossLeavesTurbo | Shelly_X_Smart_Hood_Controller.js:416-417 | at Turbo with an active alarm, no cooldown, the heat gone and no clear pattern, the decision leaves Turbo with the alarm still active |
| EngineProps.HeatLossLeavesTurbo | Shelly_X_Smart_Hood_Controller.js:416-417 | the same for a whole cycle with both gates open |
| EngineProps.DecideTurboOnlyByAlarm | Shelly_X_Smart_Hood_Controller.js:332 | the decision step ends in Turbo only when it started there or freshly raised an alarm |
| EngineProps.TurboOnlyByAlarm | Shelly_X_Smart_Hood_Controller.js:332 | a cycle ends in Turbo only when the fan was already there or an alarm was freshly raised |
| EngineProps.DecideForgottenBoilRaises | Shelly_X_Smart_Hood_Controller.js:419-423 | armed, off the re-arm delay, boil pattern and no clear pattern: the decision raises the forgotten-boil alarm at now with the fan at Turbo |
| EngineProps.ForgottenBoilRaises | Shelly_X_Smart_Hood_Controller.js:419-423 | the same for a whole cycle with both gates open, with the signals measured on the recorded history |
| EngineProps.DecideRaisedAndCleared | Shelly_X_Smart_Hood_Controller.js:419-431 | a hazard pattern together with a clear pattern raises and clears in one decision: alarm off, cleared at now, fan High, relay presses Turbo then High |
| EngineProps.RaisedAndClearedInOneCycle | Shelly_X_Smart_Hood_Controller.js:419-431 | the same raise-and-clear within one whole cycle |
| EngineProps.DecideLowThenOff | Shelly_X_Smart_Hood_Controller.js:416-432 | from Med or higher with the heat gone, a light entry and an early-exit signal, one decision goes Low then Off: cooldown over, Light, relay presses Low, Low |
| EngineProps.LowThenOffInOneCycle | Shelly_X_Smart_Hood_Controller.js:416-432 | the same two speed changes within one whole cycle |
| EngineProps.DecideHardCap | Shelly_X_Smart_Hood_Controller.js:372-377 | a Low cooldown past the 20-minute cap ends Off with the cooldown cleared unless activity or a hazard intervenes |
| EngineProps.HardCapEndsCooldown | Shelly_X_Smart_Hood_Controller.js:372-377 | the same for a whole cycle |
| EngineProps.DecideRestoredCooldownStalls | Shelly_X_Smart_Hood_Controller.js:432 | with a cooldown flag set, the fan Off and never on, and no new activity, the decision keeps the fan Off and the flag set |
| EngineProps.RestoredCooldownAtOffStalls | Shelly_X_Smart_Hood_Controller.js:432 | the same for a whole cycle, whatever the gates |
| EngineProps.OverrideRun | Shelly_X_Smart_Hood_Controller.js:398-405 | while an override stays fresh, any run of cycles changes nothing but the smoothed values and the history |
| EngineProps.ManualSelectionHolds | Shelly_X_Smart_Hood_Controller.js:398-405 | after selecting a running speed on the slider, any run of cycles within the 5-minute timeout changes nothing but the smoothed values and the history |
| EngineProps.ManualSelectionExpires | Shelly_X_Smart_Hood_Controller.js:398-403 | after the timeout the next cycle clears the override flag |
| EngineProps.SliderIdempotent | Shelly_X_Smart_Hood_Controller.js:193 | a repeated slider value changes nothing |
| EngineProps.RestoreSaved | Shelly_X_Smart_Hood_Controller.js:147-148 | restoring a fresh saved blob yields exactly the saved fields, and restoring a state's own blob gives back the state |
| Controller.HoodController.constructor | Shelly_X_Smart_Hood_Controller.js:110-120 | the fields start as the boot state |
| Controller.HoodController.SetSpeed | Shelly_X_Smart_Hood_Controller.js:253-293 | the fields change as Engine.SetSpeed says |
| Controller.HoodController.PushSample | Shelly_X_Smart_Hood_Controller.js:307-312 | the fields change as Engine.Record says |
| Controller.HoodController.Smooth | Shelly_X_Smart_Hood_Controller.js:308-309 | each smoothed field becomes the EMA step of its reading; nothing else changes |
| Controller.HoodController.Append | Shelly_X_Smart_Hood_Controller.js:310-311 | the trimming loop leaves the history equal to History.Push of the old one; nothing else changes |
| Controller.HoodController.Slope | Shelly_X_Smart_Hood_Controller.js:314-323 | the backward loop returns exactly SlopeCalc.SlopeOf of the history |
| Controller.HoodController.AlarmRaise | Shelly_X_Smart_Hood_Controller.js:326-336 | the fields change as Engine.AlarmRaise says |
| Controller.HoodController.AlarmClear | Shelly_X_Smart_Hood_Controller.js:338-346 | the fields change as Engine.AlarmClear says |
| Controller.HoodController.BeginCooldown | Shelly_X_Smart_Hood_Controller.js:349-357 | the fields change as Engine.BeginCooldown says |
| Controller.HoodController.HandleCooldown | Shelly_X_Smart_Hood_Controller.js:359-379 | the fields change as Engine.HandleCooldown says, with the early-window slopes of the history |
| Controller.HoodController.OnSlider | Shelly_X_Smart_Hood_Controller.js:188-209 | the fields change as Engine.Slider says |
| Controller.HoodController.LoadState | Shelly_X_Smart_Hood_Controller.js:142-153 | the fields change as Engine.Restore says |
| Controller.HoodController.MaybeControl | Shelly_X_Smart_Hood_Controller.js:382-456 | the fields change as Engine.Cycle says |
| Controller.HoodController.Gates | Shelly_X_Smart_Hood_Controller.js:398-408 | reports whether both gates are open; a fresh override changes nothing, otherwise only the override flag is cleared |
| Controller.HoodController.Decide | Shelly_X_Smart_Hood_Controller.js:385-455 | the fields change as Engine.Decide says on the signals measured at entry |
| Controller.HoodController.EvaluateAlarms | Shelly_X_Smart_Hood_Controller.js:419-431 | the fields change as Engine.EvaluateAlarms says, with the long-window slopes |
| Controller.HoodController.RaiseOnHazard | Shelly_X_Smart_Hood_Controller.js:419-425 | the fields change as Engine.RaiseOnHazard says |
| Controller.HoodController.ClearOnRecovery | Shelly_X_Smart_Hood_Controller.js:426-431 | an active alarm is cleared exactly when the clear pattern shows; otherwise nothing changes |
| Controller.HoodController.RunSpeedMachine | Shelly_X_Smart_Hood_Controller.js:434-455 | the fields change as Engine.SpeedStep says |

## Left out

- Device and network calls are left out: the relay RPCs, the HTTP requests to
  the remote module, the hood light and the hazard (spare) switch. Relay
  activity is kept only as the sequence of lines pressed (`relayLog`).
- Timers are left out: the debounce of the state save, the dashboard and
  status refresh delays, the light delay, and the 1.5 s hazard-switch delay.
  The second press of a double Off pulse is appended at once. The model does
  not capture that any later call of the speed setter, even one that changes
  nothing, cancels that pending press.
- Sensor polling is left out: the busy flag, the watchdog, the request chain,
  and the check that all four readings are present and numeric.
  `MaybeControl` is called with four readings. The raw fields
  `T_in`/`RH_in`/`T_room`/`RH_room`, `lastRoomTs` and `lastPollStart` are not
  kept: the raw readings are a parameter.
- The dashboard, the status text and slider sync, logging and the boot
  sequence are left out. `alarm.lastNotify` is never read by the engine and is
  not kept.
- Persistence is left out apart from the freshness test: JSON encoding, the
  storage calls, and the 2 s save debounce. A missing or unparsable blob is
  `None`.
- The slider handler's filter for events with no value is left out.
  `Engine.Slider` receives an integer value; non-integer slider values are not
  modelled.
- IEEE double arithmetic is left out. Readings, thresholds, smoothed values
  and slopes are exact reals, and timestamps are integers.
- The clock is left out: one time `now` stands for every clock read within a
  cycle.
- History.PushChronological: stated for one push only. `Run` does not require
  increasing poll times, so chronological order over a run is not claimed.

=== FILE: config.dfy ===
/** Thresholds, windows and timing constants of the hood controller.
    Times are in seconds, temperatures in degrees Celsius, humidities in
    percent relative humidity, slopes per minute. */
module Config {

  // Fan speeds
  const Off: int := 0
  const Low: int := 1
  const Med: int := 2
  const High: int := 3
  const Turbo: int := 4
  const StartOn: int := 1

  // Manual override
  const ManualTimeoutMin: int := 5

  // Sampling and smoothing
  /** Poll period in seconds; only the sensor polling, which is not part of
      this model, uses it. */
  const SampleS: int := 30
  const ShortS: int := 120
  const LongS: int := 300
  const EmaAlpha: real := 0.35
  /** Delay between the two presses that take the fan Off from above Low
      (milliseconds); the model appends both presses at once. */
  const DoublePressMs: int := 1500
  const MaxHist: nat := 20

  // Off -> Low
  const OnLowTempSlope: real := 0.7
  const OnLowTempDiff: real := 3.8
  const OnLowRhSlope: real := 1.5
  const OnLowRhDiff: real := 12.0

  // Low -> Med
  const Up12TempSlope: real := 0.7
  const Up12TempDiff: real := 4.5
  const Up12RhSlope: real := 1.5
  const Up12RhDiff: real := 12.0

  // Med -> High
  const Up23TempSlope: real := 0.9
  const Up23TempDiff: real := 4.0
  const Up23LongTempIncrease: real := 3.0

  // Downshifts
  const StableS: int := 150
  const From3TempSlopeMax: real := 0.2
  const From3TempDiffMax: real := 3.5
  const From2TempSlopeMax: real := 0.1
  const From2TempDiffMax: real := 5.0
  const From2RhDiffMax: real := 2.0

  const LockoutS: int := 90

  // Cooldown
  const CdInterruptTempSlope: real := 0.8
  const CdInterruptRhSlope: real := 1.8
  const HeavyTempDiff: real := 4.0
  const HeavyRhDiff: real := 3.0
  const MedHoldS: int := 180
  const ExitTempDiffMax: real := 2.2
  const ExitRhDiffMax: real := 4.0
  const EarlySec: int := 180
  const EarlyTempSlopeMax: real := -0.5
  const EarlyRhAbsSlopeMax: real := 0.5
  const HardCapMin: int := 20

  // Heat signal used for entering cooldown and for the lid heuristic
  const HeatSlope: real := 0.05
  const LidTempSlope: real := 0.2
  const LidRhSlope: real := -0.8
  const OnDiffSlope: real := 0.15

  // Safety alarms
  const BoilTempDiff: real := 8.0
  const BoilTempSlopeLong: real := 0.5
  const BoilRhSlopeLongMax: real := -0.3
  const SauceTempDiff: real := 12.0
  const SauceRhDiffMax: real := 1.5
  const SauceTempSlopeLong: real := 0.25
  const ArmAfterS: int := 120
  const RearmDelayS: int := 600
  const ClearCoolingSlope: real := -0.1
  const ClearRhDiffMax: real := 0.5

  // Persisted state is trusted only when its manual timestamp is this recent
  const RestoreMaxAgeS: int := 3600
}

=== FILE: controller.dfy ===
/** The controller object: the state record and the alarm record as mutable
    fields, and the operations that update them in place. Every mutating
    method is proved to leave the fields as the matching Engine function
    says; Slope only reads the history. */
module Controller {
  import opened Config
  import opened History
  import opened SlopeCalc
  import opened Engine
  import opened EngineProps

  class HoodController {
    var speed: int
    var lastChange: int
    var lastOn: int
    var cooldown: bool
    var cdStart: int
    var cdType: CooldownKind
    var tInE: Option<real>
    var rhInE: Option<real>
    var tRoomE: Option<real>
    var rhRoomE: Option<real>
    var hist: seq<Sample>
    var manualOverride: bool
    var manualStartTs: int
    var alarmActive: bool
    var alarmKind: AlarmKind
    var alarmSince: int
    var alarmLastCleared: int
    /** Relay lines pressed so far, in order. */
    var relayLog: seq<int>

    /** The fields as one state value. */
    function Model(): HoodState
      reads this
    {
      HoodState(speed, lastChange, lastOn, cooldown, cdStart, cdType,
                tInE, rhInE, tRoomE, rhRoomE, hist, manualOverride, manualStartTs,
                alarmActive, alarmKind, alarmSince, alarmLastCleared, relayLog)
    }

    predicate Valid()
      reads this
    {
      Inv(Model())
    }

    constructor ()
      ensures Valid() && Model() == Initial()
    {
      speed, lastChange, lastOn := 0, 0, 0;
      cooldown, cdStart, cdType := false, 0, Light;
      tInE, rhInE, tRoomE, rhRoomE := None, None, None, None;
      hist := [];
      manualOverride, manualStartTs := false, 0;
      alarmActive, alarmKind, alarmSince, alarmLastCleared := false, NoAlarm, 0, 0;
      relayLog := [];
    }

    method SetSpeed(target: int, manualStop: bool, now: int)
      requires Valid()
      modifies this
      ensures Valid()
      ensures Model() == Engine.SetSpeed(old(Model()), target, manualStop, now)
    {
      var t := Clamp(target);
      if t == speed && !manualStop {
        return;
      }
      var oldSpeed := speed;
      speed := t;
      lastChange := now;
      if t > Off {
        lastOn := lastChange;
      }
      if t > Off {
        relayLog := relayLog + [t];
      } else if oldSpeed == Low {
        relayLog := relayLog + [Low];
      } else {
        relayLog := relayLog + [Low];
        // the second press, sent after the double-press delay
        relayLog := relayLog + [Low];
      }
    }

    /** Smooth the readings and append them to the history, evicting the
        oldest entries beyond MaxHist. */
    method PushSample(now: int, raw: Reading)
      requires Valid()
      modifies this
      ensures Valid()
      ensures Model() == Record(old(Model()), now, raw)
    {
      Smooth(raw);
      Append(Sample(now, tInE, rhInE, tRoomE, rhRoomE));
    }

    /** Fold one raw reading into each of the four smoothed values. */
    method Smooth(raw: Reading)
      modifies this
      ensures Model() == old(Model()).(tInE := Some(Ema(old(tInE), raw.tIn)),
                                       rhInE := Some(Ema(old(rhInE), raw.rhIn)),
                                       tRoomE := Some(Ema(old(tRoomE), raw.tRoom)),
                                       rhRoomE := Some(Ema(old(rhRoomE), raw.rhRoom)))
    {
      tInE, rhInE := Some(Ema(tInE, raw.tIn)), Some(Ema(rhInE, raw.rhIn));
      tRoomE, rhRoomE := Some(Ema(tRoomE, raw.tRoom)), Some(Ema(rhRoomE, raw.rhRoom));
    }

    /** Append one sample, dropping the oldest entries while the history is
        longer than MaxHist. */
    method Append(x: Sample)
      requires |hist| <= MaxHist
      modifies this
      ensures hist == Push(old(hist), x)
      ensures Model() == old(Model()).(hist := hist)
    {
      var h := hist + [x];
      ghost var full := h;
      while |h| > MaxHist
        invariant h == full[|full| - |h|..]
        invariant |h| >= if |full| <= MaxHist then |full| else MaxHist
        decreases |h|
      {
        h := h[1..];
      }
      hist := h;
    }

    /** Rate of change per minute of field `f` over the trailing `sec`
        seconds of the history. */
    method Slope(f: Field, sec: int) returns (r: real)
      ensures r == SlopeOf(hist, f, sec)
    {
      if |hist| < 2 {
        return 0.0;
      }
      var end := hist[|hist| - 1];
      var start := end;
      var i := |hist| - 2;
      ghost var k := |hist| - 1;
      while i >= 0
        invariant -1 <= i <= |hist| - 2
        invariant k == i + 1 && start == hist[k]
        invariant forall j :: i < j <= |hist| - 2 ==> !Reaches(hist, sec, j)
      {
        if end.ts - hist[i].ts >= sec {
          start := hist[i];
          k := i;
          assert Reaches(hist, sec, k);
          break;
        }
        start := hist[i];
        k := i;
        i := i - 1;
      }
      assert k == StartIndex(hist, sec);
      var dtm := (end.ts - start.ts) as real / 60.0;
      if dtm <= 0.0 {
        return 0.0;
      }
      var vEnd, vStart := Value(end, f), Value(start, f);
      if vEnd.None? || vStart.None? {
        return 0.0;
      }
      return (vEnd.value - vStart.value) / dtm;
    }

    method AlarmRaise(kind: AlarmKind, now: int)
      requires Valid() && kind != NoAlarm
      modifies this
      ensures Valid()
      ensures Model() == Engine.AlarmRaise(old(Model()), now, kind)
    {
      if alarmActive || now - alarmLastCleared < RearmDelayS {
        return;
      }
      alarmActive, alarmKind, alarmSince := true, kind, now;
      SetSpeed(Turbo, false, now);
    }

    method AlarmClear(now: int)
      requires Valid()
      modifies this
      ensures Valid()
      ensures Model() == Engine.AlarmClear(old(Model()), now)
    {
      if !alarmActive {
        return;
      }
      alarmActive, alarmKind, alarmLastCleared := false, NoAlarm, now;
      SetSpeed(High, false, now);
    }

    method BeginCooldown(tDiff: real, rhDiff: real, now: int)
      requires Valid()
      modifies this
      ensures Valid()
      ensures Model() == Engine.BeginCooldown(old(Model()), now, tDiff, rhDiff)
    {
      if cooldown {
        return;
      }
      cooldown, cdStart := true, now;
      var heavy := tDiff >= HeavyTempDiff || rhDiff >= HeavyRhDiff;
      if heavy {
        cdType := Heavy;
        SetSpeed(Med, false, now);
      } else {
        cdType := Light;
        SetSpeed(Low, false, now);
      }
    }

    method HandleCooldown(tDiff: real, rhDiff: real, now: int)
      requires Valid()
      modifies this
      ensures Valid()
      ensures Model() == Engine.HandleCooldown(old(Model()), now, tDiff, rhDiff,
                                               SlopeOf(old(hist), Tin, EarlySec), SlopeOf(old(hist), Rin, EarlySec))
    {
      var elapsed := now - cdStart;
      if speed == Med && elapsed >= MedHoldS {
        SetSpeed(Low, false, now);
        return;
      }
      if speed == Low {
        var tempOk := Abs(tDiff) <= ExitTempDiffMax;
        var rhOk := Abs(rhDiff) <= ExitRhDiffMax;
        var earlyT := Slope(Tin, EarlySec);
        var earlyR := Slope(Rin, EarlySec);
        var earlyOk := earlyT <= EarlyTempSlopeMax && Abs(earlyR) <= EarlyRhAbsSlopeMax;
        var hardCap := elapsed >= HardCapMin * 60;
        if (tempOk && rhOk && now - lastChange >= StableS) || earlyOk || hardCap {
          SetSpeed(Off, false, now);
          cooldown := false;
        }
      }
    }

    /** A new value from the manual speed slider. */
    method OnSlider(value: int, now: int)
      requires Valid()
      modifies this
      ensures Valid()
      ensures Model() == Engine.Slider(old(Model()), value, now)
    {
      if value == speed {
        return;
      }
      cooldown := false;
      if value == 0 {
        manualOverride := false;
        SetSpeed(0, true, now);
      } else {
        manualOverride := true;
        manualStartTs := now;
        SetSpeed(value, false, now);
      }
    }

    /** Restore the persisted override and cooldown fields at boot. */
    method LoadState(blob: Option<SavedState>, now: int)
      requires Valid()
      modifies this
      ensures Valid()
      ensures Model() == Restore(old(Model()), blob, now)
    {
      if blob.Some? {
        var o := blob.value;
        if now - o.mts < RestoreMaxAgeS {
          manualOverride, manualStartTs := o.ovr, o.mts;
          cooldown, cdStart, cdType := o.cd, o.cts, o.typ;
        }
      }
    }

    /** One control cycle on four present readings. */
    method MaybeControl(now: int, raw: Reading)
      requires Valid()
      modifies this
      ensures Valid()
      ensures Model() == Cycle(old(Model()), now, raw)
    {
      ghost var s0 := Model();
      PushSample(now, raw);
      var open := Gates(now);
      if open {
        CycleDecides(s0, now, raw);
        Decide(now);
      } else if Record(s0, now, raw).manualOverride && !OverrideExpired(Record(s0, now, raw), now) {
        OverrideHolds(s0, now, raw);
      } else {
        LockoutHolds(s0, now, raw);
      }
    }

    /** The manual-override hold and the lockout after a speed change: an
        expired override is dropped, and the result says whether the cycle
        goes on to decide. */
    method Gates(now: int) returns (open: bool)
      modifies this
      ensures open == GatesOpen(old(Model()), now)
      ensures old(manualOverride) && !OverrideExpired(old(Model()), now) ==> Model() == old(Model())
      ensures !old(manualOverride) || OverrideExpired(old(Model()), now) ==>
                Model() == old(Model()).(manualOverride := false)
    {
      if manualOverride {
        var elapsedMin := (now - manualStartTs) as real / 60.0;
        if elapsedMin >= ManualTimeoutMin as real {
          manualOverride := false;
        } else {
          return false;
        }
      }
      open := now - lastChange >= LockoutS;
    }

    /** The part of a control cycle after the override and lockout gates:
        cooldown interrupt, heat-loss entry into cooldown, alarms, then
        either the cooldown or the speed machine. */
    method Decide(now: int)
      requires Valid() && Smoothed(Model())
      modifies this
      ensures Valid()
      ensures Model() == Engine.Decide(old(Model()), now, Measure(old(Model())))
    {
      var tempSlope := Slope(Tin, ShortS);
      var rhSlope := Slope(Rin, ShortS);
      var tempDiff := tInE.value - tRoomE.value;
      var rhDiff := rhInE.value - rhRoomE.value;
      ghost var m := Measure(Model());
      ghost var h := hist;
      assert m.tSlope == tempSlope && m.rhSlope == rhSlope && m.tDiff == tempDiff && m.rhDiff == rhDiff;
      assert m.tSlopeLong == SlopeOf(h, Tin, LongS) && m.rhSlopeLong == SlopeOf(h, Rin, LongS);
      assert m.tSlopeEarly == SlopeOf(h, Tin, EarlySec) && m.rhSlopeEarly == SlopeOf(h, Rin, EarlySec);
      if cooldown && (tempSlope > CdInterruptTempSlope || rhSlope > CdInterruptRhSlope) {
        cooldown := false;
      }
      ghost var a := Model();
      assert a == Interrupt(old(Model()), m);

      var heatOn := tempDiff > OnLowTempDiff || tempSlope > HeatSlope;
      if !heatOn && speed > Off && !cooldown {
        BeginCooldown(tempDiff, rhDiff, now);
      }
      ghost var b := Model();
      assert b == HeatLoss(a, now, m);
      assert hist == h;
      EvaluateAlarms(now, tempDiff, rhDiff, rhSlope);
      assert hist == h;

      if cooldown {
        HandleCooldown(tempDiff, rhDiff, now);
        return;
      }
      RunSpeedMachine(now, tempSlope, rhSlope, tempDiff, rhDiff);
    }

    /** Raise an alarm when armed and a hazard pattern shows; then clear an
        active alarm when cooling or humidity recovery shows. */
    method EvaluateAlarms(now: int, tempDiff: real, rhDiff: real, rhSlope: real)
      requires Valid() && Smoothed(Model()) && rhDiff == RhDiff(Model())
      modifies this
      ensures Valid()
      ensures Model() == Engine.EvaluateAlarms(old(Model()), now, tempDiff, rhDiff, rhSlope,
                                               SlopeOf(old(hist), Tin, LongS), SlopeOf(old(hist), Rin, LongS))
    {
      RaiseOnHazard(now, tempDiff, rhDiff);
      ClearOnRecovery(now, rhSlope);
    }

    /** Raise the alarm for the first hazard pattern that shows, when no
        alarm is active and the fan has been on long enough. */
    method RaiseOnHazard(now: int, tempDiff: real, rhDiff: real)
      requires Valid()
      modifies this
      ensures Valid()
      ensures Model() == Engine.RaiseOnHazard(old(Model()), now, tempDiff, rhDiff,
                                              SlopeOf(old(hist), Tin, LongS), SlopeOf(old(hist), Rin, LongS))
    {
      var armed := lastOn > 0 && now - lastOn >= ArmAfterS;
      if !alarmActive && armed {
        var tempSlopeLong := Slope(Tin, LongS);
        var rhSlopeLong := Slope(Rin, LongS);
        if tempDiff >= BoilTempDiff && tempSlopeLong >= BoilTempSlopeLong
           && rhSlopeLong <= BoilRhSlopeLongMax {
          AlarmRaise(ForgottenBoil, now);
        } else if tempDiff >= SauceTempDiff && Abs(rhDiff) <= SauceRhDiffMax
                  && tempSlopeLong >= SauceTempSlopeLong {
          AlarmRaise(BurningSauce, now);
        }
      }
    }

    /** Clear an active alarm once the inner temperature is falling or the
        humidity is recovering. */
    method ClearOnRecovery(now: int, rhSlope: real)
      requires Valid() && Smoothed(Model())
      modifies this
      ensures Valid()
      ensures Model() == if old(alarmActive) && ClearPattern(SlopeOf(old(hist), Tin, LongS), rhSlope, RhDiff(old(Model())))
                         then Engine.AlarmClear(old(Model()), now) else old(Model())
    {
      if alarmActive {
        var tempSlopeLong := Slope(Tin, LongS);
        var rhDiffNow := rhInE.value - rhRoomE.value;
        var cooling := tempSlopeLong <= ClearCoolingSlope;
        var rhRecover := rhSlope >= 0.0 || Abs(rhDiffNow) <= ClearRhDiffMax;
        if cooling || rhRecover {
          AlarmClear(now);
        }
      }
    }

    /** The hysteretic speed machine at the end of a control cycle. */
    method RunSpeedMachine(now: int, tempSlope: real, rhSlope: real, tempDiff: real, rhDiff: real)
      requires Valid()
      modifies this
      ensures Valid()
      ensures Model() == SpeedStep(old(Model()), now, tempSlope, rhSlope, tempDiff, rhDiff,
                                   SlopeOf(old(hist), Tin, LongS))
    {
      if speed == Off {
        if tempSlope >= OnLowTempSlope {
          SetSpeed(StartOn, false, now);
          return;
        }
        if rhSlope >= OnLowRhSlope {
          SetSpeed(StartOn, false, now);
          return;
        }
        if |hist| > 1 {
          if tempDiff >= OnLowTempDiff && tempSlope > OnDiffSlope {
            SetSpeed(StartOn, false, now);
            return;
          }
          if rhDiff >= OnLowRhDiff && rhSlope > OnDiffSlope {
            SetSpeed(StartOn, false, now);
            return;
          }
        }
      } else {
        var stable := now - lastChange >= StableS;
        if stable {
          if speed == High && (tempSlope <= From3TempSlopeMax || tempDiff <= From3TempDiffMax) {
            SetSpeed(Med, false, now);
            return;
          }
          if speed == Med && tempSlope <= From2TempSlopeMax && tempDiff <= From2TempDiffMax
             && rhDiff <= From2RhDiffMax {
            SetSpeed(Low, false, now);
            return;
          }
        }
        var lidLikely := tempSlope >= LidTempSlope && rhSlope <= LidRhSlope;
        if speed == Low && (tempSlope >= Up12TempSlope || tempDiff >= Up12TempDiff
                            || rhSlope >= Up12RhSlope || rhDiff >= Up12RhDiff) {
          SetSpeed(Med, false, now);
          return;
        }
        if speed == Med && !lidLikely {
          var tempSlopeLong := Slope(Tin, LongS);
          if (tempSlope >= Up23TempSlope && tempDiff >= Up23TempDiff)
             || tempSlopeLong * 5.0 >= Up23LongTempIncrease {
            SetSpeed(High, false, now);
            return;
          }
        }
      }
    }
  }
}

=== FILE: engine.dfy ===
/** The decision engine as functions on a value of the controller's state.
    Each function here is the specification of one controller operation:
    the methods of Controller.HoodController are proved to change their
    fields exactly as these functions say. */
module Engine {
  import opened Config
  import opened History
  import opened SlopeCalc

  datatype CooldownKind = Light | Heavy

  datatype AlarmKind = NoAlarm | ForgottenBoil | BurningSauce

  /** The controller's state record and alarm record, flattened. `relayLog`
      is the sequence of relay lines (1..4) pressed so far. */
  datatype HoodState = HoodState(
    speed: int, lastChange: int, lastOn: int,
    cooldown: bool, cdStart: int, cdType: CooldownKind,
    tInE: Option<real>, rhInE: Option<real>, tRoomE: Option<real>, rhRoomE: Option<real>,
    hist: seq<Sample>,
    manualOverride: bool, manualStartTs: int,
    alarmActive: bool, alarmKind: AlarmKind, alarmSince: int, alarmLastCleared: int,
    relayLog: seq<int>)

  /** The state at boot. */
  function Initial(): (s: HoodState)
    ensures Inv(s) && s.speed == Off && s.hist == [] && !s.cooldown && !s.alarmActive
  {
    HoodState(0, 0, 0, false, 0, Light, None, None, None, None, [],
              false, 0, false, NoAlarm, 0, 0, [])
  }

  /** What every operation preserves: a speed level in range, a bounded
      history, and an alarm kind that is set exactly while the alarm is. */
  predicate Inv(s: HoodState)
  {
    && Off <= s.speed <= Turbo
    && |s.hist| <= MaxHist
    && (s.alarmActive <==> s.alarmKind != NoAlarm)
  }

  // ---------------------------------------------------------------------
  // Speed changes

  function Clamp(target: int): int
  {
    if target > Turbo then Turbo else if target < Off then Off else target
  }

  /** Relay lines pressed for a change from `from` to `to`: the target's own
      line when turning on or changing speed, one press of the Low line to go
      from Low to Off, and two presses of the Low line from any other level. */
  function Presses(from: int, to: int): (lines: seq<int>)
    ensures 1 <= |lines| <= 2
    ensures to > Off ==> lines == [to]
    ensures to <= Off ==> forall i :: 0 <= i < |lines| ==> lines[i] == Low
    ensures |lines| == 2 <==> to <= Off && from != Low
  {
    if to > Off then [to]
    else if from == Low then [Low]
    else [Low, Low]
  }

  /** The single entry point for speed changes. */
  function SetSpeed(s: HoodState, target: int, manualStop: bool, now: int): (r: HoodState)
    ensures Off <= r.speed <= Turbo
    ensures Off <= target <= Turbo ==> r.speed == target
    ensures target < Off ==> r.speed == Off
    ensures target > Turbo ==> r.speed == Turbo
    ensures r.speed == s.speed && !manualStop ==> r == s
    ensures r.speed != s.speed || manualStop ==>
              && r.lastChange == now
              && r.lastOn == (if r.speed > Off then now else s.lastOn)
              && r.relayLog == s.relayLog + Presses(s.speed, r.speed)
    ensures r.(speed := s.speed, lastChange := s.lastChange, lastOn := s.lastOn,
               relayLog := s.relayLog) == s
  {
    var t := Clamp(target);
    if t == s.speed && !manualStop then s
    else s.(speed := t, lastChange := now,
            lastOn := if t > Off then now else s.lastOn,
            relayLog := s.relayLog + Presses(s.speed, t))
  }

  /** The time stamp of the last speed change is either kept or moved to
      `now`, and it is moved whenever the speed differs. */
  predicate Stamped(s: HoodState, r: HoodState, now: int)
  {
    && (r.lastChange == s.lastChange || r.lastChange == now)
    && (r.speed != s.speed ==> r.lastChange == now)
  }

  /** The stamps and relay presses of at most one call of the speed setter
      without a manual stop: a changed speed moves `lastChange` to `now`,
      moves `lastOn` to `now` when the new speed is non-zero, and presses the
      relays for that change; an unchanged speed leaves all three alone. */
  predicate SpeedSetBy(s: HoodState, r: HoodState, now: int)
  {
    if r.speed != s.speed then
      && r.lastChange == now
      && r.lastOn == (if r.speed > Off then now else s.lastOn)
      && r.relayLog == s.relayLog + Presses(s.speed, r.speed)
    else
      r.lastChange == s.lastChange && r.lastOn == s.lastOn && r.relayLog == s.relayLog
  }

  // ---------------------------------------------------------------------
  // Cooldown

  /** Heavy cooking at the end of the heat signal. */
  predicate HeavyEntry(tDiff: real, rhDiff: real)
  {
    tDiff >= HeavyTempDiff || rhDiff >= HeavyRhDiff
  }

  function BeginCooldown(s: HoodState, now: int, tDiff: real, rhDiff: real): (r: HoodState)
    ensures s.cooldown ==> r == s
    ensures !s.cooldown ==>
              && r.cooldown && r.cdStart == now
              && (r.cdType == Heavy <==> HeavyEntry(tDiff, rhDiff))
              && r.speed == (if HeavyEntry(tDiff, rhDiff) then Med else Low)
    ensures SpeedSetBy(s, r, now)
    ensures r.(speed := s.speed, lastChange := s.lastChange, lastOn := s.lastOn, relayLog := s.relayLog,
               cooldown := s.cooldown, cdStart := s.cdStart, cdType := s.cdType) == s
  {
    if s.cooldown then s
    else
      var heavy := HeavyEntry(tDiff, rhDiff);
      var c := s.(cooldown := true, cdStart := now, cdType := if heavy then Heavy else Light);
      if heavy then SetSpeed(c, Med, false, now) else SetSpeed(c, Low, false, now)
  }

  /** The three ways out of a Low cooldown: differentials back to normal and
      the speed stable, the fast-cooling signature over the early window, or
      the hard cap on the cooldown's length. */
  predicate LowExit(s: HoodState, now: int, tDiff: real, rhDiff: real, earlyT: real, earlyR: real)
  {
    var tempOk := Abs(tDiff) <= ExitTempDiffMax;
    var rhOk := Abs(rhDiff) <= ExitRhDiffMax;
    var earlyOk := earlyT <= EarlyTempSlopeMax && Abs(earlyR) <= EarlyRhAbsSlopeMax;
    var hardCap := now - s.cdStart >= HardCapMin * 60;
    (tempOk && rhOk && now - s.lastChange >= StableS) || earlyOk || hardCap
  }

  /** Cooldown step; `earlyT` and `earlyR` are the temperature and humidity
      slopes over the early-exit window. */
  function HandleCooldown(s: HoodState, now: int, tDiff: real, rhDiff: real, earlyT: real, earlyR: real)
    : (r: HoodState)
    ensures s.speed != Med && s.speed != Low ==> r == s
    ensures s.speed == Med ==>
              r.speed == (if now - s.cdStart >= MedHoldS then Low else Med) && r.cooldown == s.cooldown
    ensures s.speed == Med && now - s.cdStart < MedHoldS ==> r == s
    ensures s.speed == Low && LowExit(s, now, tDiff, rhDiff, earlyT, earlyR) ==> r.speed == Off && !r.cooldown
    ensures s.speed == Low && !LowExit(s, now, tDiff, rhDiff, earlyT, earlyR) ==> r == s
    ensures s.speed == Low && now - s.cdStart >= HardCapMin * 60 ==> r.speed == Off && !r.cooldown
    ensures SpeedSetBy(s, r, now)
    ensures r.(speed := s.speed, lastChange := s.lastChange, lastOn := s.lastOn, relayLog := s.relayLog,
               cooldown := s.cooldown) == s
  {
    if s.speed == Med && now - s.cdStart >= MedHoldS then SetSpeed(s, Low, false, now)
    else if s.speed == Low && LowExit(s, now, tDiff, rhDiff, earlyT, earlyR) then
      SetSpeed(s, Off, false, now).(cooldown := false)
    else s
  }

  // ---------------------------------------------------------------------
  // Alarms

  predicate RaiseBlocked(s: HoodState, now: int)
  {
    s.alarmActive || now - s.alarmLastCleared < RearmDelayS
  }

  function AlarmRaise(s: HoodState, now: int, kind: AlarmKind): (r: HoodState)
    requires kind != NoAlarm
    ensures RaiseBlocked(s, now) ==> r == s
    ensures !RaiseBlocked(s, now) ==>
              r.alarmActive && r.alarmKind == kind && r.alarmSince == now && r.speed == Turbo
    ensures SpeedSetBy(s, r, now)
    ensures r.(speed := s.speed, lastChange := s.lastChange, lastOn := s.lastOn, relayLog := s.relayLog,
               alarmActive := s.alarmActive, alarmKind := s.alarmKind, alarmSince := s.alarmSince) == s
  {
    if RaiseBlocked(s, now) then s
    else SetSpeed(s.(alarmActive := true, alarmKind := kind, alarmSince := now), Turbo, false, now)
  }

  function AlarmClear(s: HoodState, now: int): (r: HoodState)
    ensures !s.alarmActive ==> r == s
    ensures s.alarmActive ==>
              !r.alarmActive && r.alarmKind == NoAlarm && r.alarmLastCleared == now && r.speed == High
    ensures SpeedSetBy(s, r, now)
    ensures r.(speed := s.speed, lastChange := s.lastChange, lastOn := s.lastOn, relayLog := s.relayLog,
               alarmActive := s.alarmActive, alarmKind := s.alarmKind,
               alarmLastCleared := s.alarmLastCleared) == s
  {
    if !s.alarmActive then s
    else SetSpeed(s.(alarmActive := false, alarmKind := NoAlarm, alarmLastCleared := now), High, false, now)
  }

  /** The fan has been on long enough for the alarms to be armed. */
  predicate Armed(s: HoodState, now: int)
  {
    s.lastOn > 0 && now - s.lastOn >= ArmAfterS
  }

  /** Heat rising while humidity falls: the water has boiled away. */
  predicate BoilPattern(tDiff: real, tSlopeLong: real, rhSlopeLong: real)
  {
    tDiff >= BoilTempDiff && tSlopeLong >= BoilTempSlopeLong && rhSlopeLong <= BoilRhSlopeLongMax
  }

  /** Strong heat rising with flat humidity: no steam, a pan scorching. */
  predicate SaucePattern(tDiff: real, rhDiff: real, tSlopeLong: real)
  {
    tDiff >= SauceTempDiff && Abs(rhDiff) <= SauceRhDiffMax && tSlopeLong >= SauceTempSlopeLong
  }

  /** Cooling, or humidity recovering. */
  predicate ClearPattern(tSlopeLong: real, rhSlope: real, rhDiff: real)
  {
    tSlopeLong <= ClearCoolingSlope || rhSlope >= 0.0 || Abs(rhDiff) <= ClearRhDiffMax
  }

  /** With no alarm active and the fan on long enough, raise the alarm for
      the first hazard pattern that shows: the forgotten boil before the
      burning sauce. */
  function RaiseOnHazard(s: HoodState, now: int, tDiff: real, rhDiff: real, tLong: real, rhLong: real)
    : (r: HoodState)
    ensures !s.alarmActive && Armed(s, now) && BoilPattern(tDiff, tLong, rhLong) ==>
              r == AlarmRaise(s, now, ForgottenBoil)
    ensures (!s.alarmActive && Armed(s, now) && !BoilPattern(tDiff, tLong, rhLong)
             && SaucePattern(tDiff, rhDiff, tLong)) ==> r == AlarmRaise(s, now, BurningSauce)
    ensures (s.alarmActive || !Armed(s, now) || RaiseBlocked(s, now)
             || (!BoilPattern(tDiff, tLong, rhLong) && !SaucePattern(tDiff, rhDiff, tLong))) ==> r == s
    ensures r.(speed := s.speed, lastChange := s.lastChange, lastOn := s.lastOn, relayLog := s.relayLog,
               alarmActive := s.alarmActive, alarmKind := s.alarmKind, alarmSince := s.alarmSince) == s
  {
    if !s.alarmActive && Armed(s, now) then
      if BoilPattern(tDiff, tLong, rhLong) then AlarmRaise(s, now, ForgottenBoil)
      else if SaucePattern(tDiff, rhDiff, tLong) then AlarmRaise(s, now, BurningSauce)
      else s
    else s
  }

  /** Raise an alarm when armed and a hazard pattern shows, then clear an
      active alarm when the clear pattern shows (the same cycle included). */
  function EvaluateAlarms(s: HoodState, now: int, tDiff: real, rhDiff: real, rhSlope: real,
                          tLong: real, rhLong: real): (r: HoodState)
    requires Inv(s)
    ensures Inv(r)
    ensures !s.alarmActive && RaiseBlocked(s, now) ==> r == s
    ensures r.alarmActive ==> !ClearPattern(tLong, rhSlope, rhDiff)
    ensures s.alarmActive && !ClearPattern(tLong, rhSlope, rhDiff) ==> r == s
    ensures s.alarmActive && ClearPattern(tLong, rhSlope, rhDiff) ==> r == AlarmClear(s, now)
    ensures !s.alarmActive && !ClearPattern(tLong, rhSlope, rhDiff) ==>
              r == RaiseOnHazard(s, now, tDiff, rhDiff, tLong, rhLong)
    ensures !s.alarmActive && ClearPattern(tLong, rhSlope, rhDiff) ==>
              r == AlarmClear(RaiseOnHazard(s, now, tDiff, rhDiff, tLong, rhLong), now)
    ensures r.speed == Turbo ==> s.speed == Turbo || (r.alarmActive && !s.alarmActive)
    ensures Stamped(s, r, now)
    ensures r.(speed := s.speed, lastChange := s.lastChange, lastOn := s.lastOn, relayLog := s.relayLog,
               alarmActive := s.alarmActive, alarmKind := s.alarmKind, alarmSince := s.alarmSince,
               alarmLastCleared := s.alarmLastCleared) == s
  {
    var raised := RaiseOnHazard(s, now, tDiff, rhDiff, tLong, rhLong);
    if raised.alarmActive && ClearPattern(tLong, rhSlope, rhDiff) then AlarmClear(raised, now)
    else raised
  }

  // ---------------------------------------------------------------------
  // The automatic speed machine

  /** Rising temperature with falling humidity suggests a covered pot. */
  predicate LidLikely(tSlope: real, rhSlope: real)
  {
    tSlope >= LidTempSlope && rhSlope <= LidRhSlope
  }

  predicate StartUp(s: HoodState, tSlope: real, rhSlope: real, tDiff: real, rhDiff: real)
  {
    || tSlope >= OnLowTempSlope
    || rhSlope >= OnLowRhSlope
    || (|s.hist| > 1 && tDiff >= OnLowTempDiff && tSlope > OnDiffSlope)
    || (|s.hist| > 1 && rhDiff >= OnLowRhDiff && rhSlope > OnDiffSlope)
  }

  predicate Stable(s: HoodState, now: int)
  {
    now - s.lastChange >= StableS
  }

  predicate Down3(tSlope: real, tDiff: real)
  {
    tSlope <= From3TempSlopeMax || tDiff <= From3TempDiffMax
  }

  predicate Down2(tSlope: real, tDiff: real, rhDiff: real)
  {
    tSlope <= From2TempSlopeMax && tDiff <= From2TempDiffMax && rhDiff <= From2RhDiffMax
  }

  predicate Up12(tSlope: real, rhSlope: real, tDiff: real, rhDiff: real)
  {
    tSlope >= Up12TempSlope || tDiff >= Up12TempDiff || rhSlope >= Up12RhSlope || rhDiff >= Up12RhDiff
  }

  predicate Up23(tSlope: real, tDiff: real, tSlopeLong: real)
  {
    (tSlope >= Up23TempSlope && tDiff >= Up23TempDiff) || tSlopeLong * 5.0 >= Up23LongTempIncrease
  }

  /** One step of the hysteretic Off/Low/Med/High machine. */
  function SpeedStep(s: HoodState, now: int, tSlope: real, rhSlope: real, tDiff: real, rhDiff: real,
                     tSlopeLong: real): (r: HoodState)
    requires Inv(s)
    ensures Inv(r)
    ensures r.speed == s.speed || r.speed == s.speed + 1 || r.speed == s.speed - 1
    ensures r.speed == Turbo ==> s.speed == Turbo
    ensures s.speed == Turbo ==> r == s
    ensures r.speed == s.speed ==> r == s
    ensures r.speed < s.speed ==> Stable(s, now)
    ensures s.speed == Low ==> r.speed != Off
    ensures s.speed == Off && r.speed == Low <==> s.speed == Off && StartUp(s, tSlope, rhSlope, tDiff, rhDiff)
    ensures s.speed == Low && r.speed == Med <==> s.speed == Low && Up12(tSlope, rhSlope, tDiff, rhDiff)
    ensures s.speed == Med && r.speed == High ==> !LidLikely(tSlope, rhSlope)
    ensures s.speed == High ==> (r.speed == Med <==> Stable(s, now) && Down3(tSlope, tDiff))
    ensures s.speed == Med ==> (r.speed == Low <==> Stable(s, now) && Down2(tSlope, tDiff, rhDiff))
    ensures s.speed == Med ==>
              (r.speed == High <==> !(Stable(s, now) && Down2(tSlope, tDiff, rhDiff))
                                    && !LidLikely(tSlope, rhSlope) && Up23(tSlope, tDiff, tSlopeLong))
    ensures SpeedSetBy(s, r, now)
    ensures r.(speed := s.speed, lastChange := s.lastChange, lastOn := s.lastOn, relayLog := s.relayLog) == s
  {
    if s.speed == Off then
      if StartUp(s, tSlope, rhSlope, tDiff, rhDiff) then SetSpeed(s, StartOn, false, now) else s
    else if Stable(s, now) && s.speed == High && Down3(tSlope, tDiff) then SetSpeed(s, Med, false, now)
    else if Stable(s, now) && s.speed == Med && Down2(tSlope, tDiff, rhDiff) then SetSpeed(s, Low, false, now)
    else if s.speed == Low && Up12(tSlope, rhSlope, tDiff, rhDiff) then SetSpeed(s, Med, false, now)
    else if s.speed == Med && !LidLikely(tSlope, rhSlope)
            && Up23(tSlope, tDiff, tSlopeLong) then SetSpeed(s, High, false, now)
    else s
  }

  // ---------------------------------------------------------------------
  // The control cycle

  /** Smooth the four readings and append them, stamped `now`, to the history. */
  function Record(s: HoodState, now: int, raw: Reading): (r: HoodState)
    requires |s.hist| <= MaxHist
    ensures r.tInE == Some(Ema(s.tInE, raw.tIn)) && r.rhInE == Some(Ema(s.rhInE, raw.rhIn))
    ensures r.tRoomE == Some(Ema(s.tRoomE, raw.tRoom)) && r.rhRoomE == Some(Ema(s.rhRoomE, raw.rhRoom))
    ensures r.hist == Push(s.hist, Sample(now, r.tInE, r.rhInE, r.tRoomE, r.rhRoomE))
    ensures r.(tInE := s.tInE, rhInE := s.rhInE, tRoomE := s.tRoomE, rhRoomE := s.rhRoomE,
               hist := s.hist) == s
  {
    var t := Some(Ema(s.tInE, raw.tIn));
    var rh := Some(Ema(s.rhInE, raw.rhIn));
    var tr := Some(Ema(s.tRoomE, raw.tRoom));
    var rhr := Some(Ema(s.rhRoomE, raw.rhRoom));
    s.(tInE := t, rhInE := rh, tRoomE := tr, rhRoomE := rhr,
       hist := Push(s.hist, Sample(now, t, rh, tr, rhr)))
  }

  predicate Smoothed(s: HoodState)
  {
    s.tInE.Some? && s.rhInE.Some? && s.tRoomE.Some? && s.rhRoomE.Some?
  }

  function TempDiff(s: HoodState): real
    requires Smoothed(s)
  {
    s.tInE.value - s.tRoomE.value
  }

  function RhDiff(s: HoodState): real
    requires Smoothed(s)
  {
    s.rhInE.value - s.rhRoomE.value
  }

  predicate OverrideExpired(s: HoodState, now: int)
  {
    (now - s.manualStartTs) as real / 60.0 >= ManualTimeoutMin as real
  }

  /** Renewed cooking activity cancels a cooldown. */
  predicate Interrupts(tSlope: real, rhSlope: real)
  {
    tSlope > CdInterruptTempSlope || rhSlope > CdInterruptRhSlope
  }

  predicate HeatOn(tDiff: real, tSlope: real)
  {
    tDiff > OnLowTempDiff || tSlope > HeatSlope
  }

  /** What one cycle measures: the differentials of the newest smoothed
      values, and the temperature and humidity slopes over the short, long
      and early-exit windows. */
  datatype Signals = Signals(tDiff: real, rhDiff: real, tSlope: real, rhSlope: real,
                             tSlopeLong: real, rhSlopeLong: real,
                             tSlopeEarly: real, rhSlopeEarly: real)

  function Measure(p: HoodState): Signals
    requires Smoothed(p)
  {
    Signals(TempDiff(p), RhDiff(p),
            SlopeOf(p.hist, Tin, ShortS), SlopeOf(p.hist, Rin, ShortS),
            SlopeOf(p.hist, Tin, LongS), SlopeOf(p.hist, Rin, LongS),
            SlopeOf(p.hist, Tin, EarlySec), SlopeOf(p.hist, Rin, EarlySec))
  }

  /** Renewed activity cancels a running cooldown. */
  function Interrupt(q: HoodState, m: Signals): (r: HoodState)
    ensures r == q || (q.cooldown && r == q.(cooldown := false))
    ensures r.cooldown ==> !Interrupts(m.tSlope, m.rhSlope)
    ensures !Interrupts(m.tSlope, m.rhSlope) ==> r == q
  {
    if q.cooldown && Interrupts(m.tSlope, m.rhSlope) then q.(cooldown := false) else q
  }

  /** The heat signal has gone while the fan runs outside a cooldown. */
  function HeatLoss(a: HoodState, now: int, m: Signals): (r: HoodState)
    requires Inv(a)
    ensures Inv(r) && r.cooldown == (a.cooldown || (!HeatOn(m.tDiff, m.tSlope) && a.speed > Off))
    ensures a.cooldown || HeatOn(m.tDiff, m.tSlope) || a.speed == Off ==> r == a
    ensures !a.cooldown && !HeatOn(m.tDiff, m.tSlope) && a.speed > Off ==>
              r == BeginCooldown(a, now, m.tDiff, m.rhDiff)
    ensures r.speed != a.speed ==> r.speed == Low || r.speed == Med
    ensures SpeedSetBy(a, r, now)
    ensures r.(speed := a.speed, lastChange := a.lastChange, lastOn := a.lastOn, relayLog := a.relayLog,
               cooldown := a.cooldown, cdStart := a.cdStart, cdType := a.cdType) == a
  {
    if !HeatOn(m.tDiff, m.tSlope) && a.speed > Off && !a.cooldown then BeginCooldown(a, now, m.tDiff, m.rhDiff)
    else a
  }

  /** Everything after the override and lockout gates, on the recorded
      state `q` and its signals `m`. */
  function Decide(q: HoodState, now: int, m: Signals): (r: HoodState)
    requires Inv(q)
    ensures Inv(r) && Stamped(q, r, now)
    ensures r.(speed := q.speed, lastChange := q.lastChange, lastOn := q.lastOn, relayLog := q.relayLog,
               cooldown := q.cooldown, cdStart := q.cdStart, cdType := q.cdType,
               alarmActive := q.alarmActive, alarmKind := q.alarmKind, alarmSince := q.alarmSince,
               alarmLastCleared := q.alarmLastCleared) == q
  {
    var a := Interrupt(q, m);
    var b := HeatLoss(a, now, m);
    var d := EvaluateAlarms(b, now, m.tDiff, m.rhDiff, m.rhSlope, m.tSlopeLong, m.rhSlopeLong);
    if d.cooldown then HandleCooldown(d, now, m.tDiff, m.rhDiff, m.tSlopeEarly, m.rhSlopeEarly)
    else SpeedStep(d, now, m.tSlope, m.rhSlope, m.tDiff, m.rhDiff, m.tSlopeLong)
  }

  /** One poll cycle with four present readings: record the sample, then hold
      while a manual override is fresh, then respect the lockout, then
      decide. An expiring override is cleared and the cycle goes on. */
  function Cycle(s: HoodState, now: int, raw: Reading): (r: HoodState)
    requires Inv(s)
    ensures Inv(r)
    ensures r.hist == Record(s, now, raw).hist
  {
    var p := Record(s, now, raw);
    if p.manualOverride && !OverrideExpired(p, now) then p
    else
      var q := p.(manualOverride := false);
      if now - q.lastChange < LockoutS then q
      else Decide(q, now, Measure(q))
  }

  // ---------------------------------------------------------------------
  // Manual input and persistence

  /** A value from the manual speed slider. */
  function Slider(s: HoodState, value: int, now: int): (r: HoodState)
    ensures value == s.speed ==> r == s
    ensures value != s.speed ==> !r.cooldown
    ensures value != s.speed && value == 0 ==>
              !r.manualOverride && r.speed == Off && r.lastChange == now
    ensures value != s.speed && value != 0 ==>
              r.manualOverride && r.manualStartTs == now && r.speed == Clamp(value)
    ensures value != s.speed && value == 0 ==> r.manualStartTs == s.manualStartTs
    ensures SpeedSetBy(s, r, now)
    ensures r.(speed := s.speed, lastChange := s.lastChange, lastOn := s.lastOn, relayLog := s.relayLog,
               cooldown := s.cooldown, manualOverride := s.manualOverride,
               manualStartTs := s.manualStartTs) == s
  {
    if value == s.speed then s
    else
      var c := s.(cooldown := false);
      if value == 0 then SetSpeed(c.(manualOverride := false), Off, true, now)
      else SetSpeed(c.(manualOverride := true, manualStartTs := now), value, false, now)
  }

  /** The persisted part of the state. */
  datatype SavedState = SavedState(ovr: bool, mts: int, cd: bool, cts: int, typ: CooldownKind)

  function Save(s: HoodState): SavedState
  {
    SavedState(s.manualOverride, s.manualStartTs, s.cooldown, s.cdStart, s.cdType)
  }

  /** Restore a saved blob (None when absent or unreadable) unless it is
      stale: its manual timestamp must be less than an hour old. */
  function Restore(s: HoodState, blob: Option<SavedState>, now: int): (r: HoodState)
    ensures blob.None? || now - blob.value.mts >= RestoreMaxAgeS ==> r == s
    ensures blob.Some? && now - blob.value.mts < RestoreMaxAgeS ==> Save(r) == blob.value
    ensures r.(manualOverride := s.manualOverride, manualStartTs := s.manualStartTs,
               cooldown := s.cooldown, cdStart := s.cdStart, cdType := s.cdType) == s
  {
    if blob.Some? && now - blob.value.mts < RestoreMaxAgeS then
      var o := blob.value;
      s.(manualOverride := o.ovr, manualStartTs := o.mts, cooldown := o.cd, cdStart := o.cts, cdType := o.typ)
    else s
  }
}

=== FILE: engine_props.dfy ===
/** Properties of the control cycle that relate several operations or
    several cycles. */
module EngineProps {
  import opened Config
  import opened History
  import opened SlopeCalc
  import opened Engine

  /** The state a cycle decides on: the recorded state with the override
      flag cleared. */
  function Gated(s: HoodState, now: int, raw: Reading): (q: HoodState)
    requires Inv(s)
    ensures Inv(q) && Smoothed(q) && !q.manualOverride
  {
    Record(s, now, raw).(manualOverride := false)
  }

  /** Neither the override hold nor the lockout stops the cycle. */
  predicate GatesOpen(s: HoodState, now: int)
  {
    (!s.manualOverride || OverrideExpired(s, now)) && now - s.lastChange >= LockoutS
  }

  /** One poll: its time and its four readings. */
  datatype Poll = Poll(now: int, raw: Reading)

  /** The state after a cycle for each poll of `polls`, in order. */
  function Run(s: HoodState, polls: seq<Poll>): (r: HoodState)
    requires Inv(s)
    ensures Inv(r)
    decreases |polls|
  {
    if polls == [] then s else Run(Cycle(s, polls[0].now, polls[0].raw), polls[1..])
  }

  // ---------------------------------------------------------------------
  // The gates

  /** A fresh manual override holds the cycle: only the smoothing and the
      history move. */
  lemma OverrideHolds(s: HoodState, now: int, raw: Reading)
    requires Inv(s) && s.manualOverride && !OverrideExpired(s, now)
    ensures Cycle(s, now, raw) == Record(s, now, raw)
  {
  }

  /** Within the lockout the cycle changes nothing but the smoothing, the
      history and, when it has expired, the override flag. */
  lemma LockoutHolds(s: HoodState, now: int, raw: Reading)
    requires Inv(s) && (!s.manualOverride || OverrideExpired(s, now))
    requires now - s.lastChange < LockoutS
    ensures Cycle(s, now, raw) == Gated(s, now, raw)
  {
  }

  /** With both gates open the cycle decides on the gated state and the
      signals measured on it. */
  lemma CycleDecides(s: HoodState, now: int, raw: Reading)
    requires Inv(s) && GatesOpen(s, now)
    ensures Cycle(s, now, raw) == Decide(Gated(s, now, raw), now, Measure(Gated(s, now, raw)))
  {
  }

  /** A cycle moves the time stamp of the last change to `now` whenever it
      changes the speed, and otherwise keeps it or moves it to `now`. */
  lemma CycleStamped(s: HoodState, now: int, raw: Reading)
    requires Inv(s)
    ensures Stamped(s, Cycle(s, now, raw), now)
  {
    if GatesOpen(s, now) {
      CycleDecides(s, now, raw);
    }
  }

  /** Cycles that all fall within the lockout of the last speed change
      change neither the speed nor its time stamp. */
  lemma {:induction false} LockedRun(s: HoodState, polls: seq<Poll>)
    requires Inv(s)
    requires forall i :: 0 <= i < |polls| ==> polls[i].now < s.lastChange + LockoutS
    ensures Run(s, polls).speed == s.speed && Run(s, polls).lastChange == s.lastChange
    decreases |polls|
  {
    if polls != [] {
      var p := polls[0];
      if s.manualOverride && !OverrideExpired(s, p.now) {
        OverrideHolds(s, p.now, p.raw);
      } else {
        LockoutHolds(s, p.now, p.raw);
      }
      var c := Cycle(s, p.now, p.raw);
      assert c.speed == s.speed && c.lastChange == s.lastChange;
      forall i | 0 <= i < |polls[1..]| ensures polls[1..][i].now < c.lastChange + LockoutS {
        assert polls[1..][i] == polls[i + 1];
      }
      LockedRun(c, polls[1..]);
    }
  }

  /** A cycle that changed the speed blocks every speed change by the cycles
      that follow it within the length of the lockout. */
  lemma NoTwoChangesWithinLockout(s: HoodState, t1: int, raw1: Reading, polls: seq<Poll>)
    requires Inv(s)
    requires Cycle(s, t1, raw1).speed != s.speed
    requires forall i :: 0 <= i < |polls| ==> polls[i].now < t1 + LockoutS
    ensures Run(Cycle(s, t1, raw1), polls).speed == Cycle(s, t1, raw1).speed
  {
    var c := Cycle(s, t1, raw1);
    ChangeRestartsLockout(s, t1, raw1);
    LockedRun(c, polls);
  }

  /** A cycle that changes the speed stamps the change with its own time. */
  lemma ChangeRestartsLockout(s: HoodState, now: int, raw: Reading)
    requires Inv(s) && Cycle(s, now, raw).speed != s.speed
    ensures Cycle(s, now, raw).lastChange == now
  {
    CycleStamped(s, now, raw);
  }

  // ---------------------------------------------------------------------
  // Alarms

  /** No alarm can be raised within the re-arm delay after the last clear,
      whatever the signals. */
  lemma {:induction false} DecideNoRaiseWithinRearmDelay(q: HoodState, now: int, m: Signals)
    requires Inv(q) && !q.alarmActive && now - q.alarmLastCleared < RearmDelayS
    ensures !Decide(q, now, m).alarmActive
  {
    var a := Interrupt(q, m);
    var b := HeatLoss(a, now, m);
    assert !b.alarmActive && b.alarmLastCleared == q.alarmLastCleared;
    var d := EvaluateAlarms(b, now, m.tDiff, m.rhDiff, m.rhSlope, m.tSlopeLong, m.rhSlopeLong);
    assert d == b;
  }

  lemma NoRaiseWithinRearmDelay(s: HoodState, now: int, raw: Reading)
    requires Inv(s) && !s.alarmActive && now - s.alarmLastCleared < RearmDelayS
    ensures !Cycle(s, now, raw).alarmActive
  {
    if GatesOpen(s, now) {
      CycleDecides(s, now, raw);
      var q := Gated(s, now, raw);
      DecideNoRaiseWithinRearmDelay(q, now, Measure(q));
    }
  }

  /** Only a freshly raised alarm puts the fan into Turbo; the heat-loss
      entry, the cooldown and the speed machine never select it. */
  lemma {:induction false} DecideTurboOnlyByAlarm(q: HoodState, now: int, m: Signals)
    requires Inv(q)
    ensures var r := Decide(q, now, m);
      r.speed == Turbo ==> q.speed == Turbo || (r.alarmActive && !q.alarmActive)
  {
    var a := Interrupt(q, m);
    var b := HeatLoss(a, now, m);
    var d := EvaluateAlarms(b, now, m.tDiff, m.rhDiff, m.rhSlope, m.tSlopeLong, m.rhSlopeLong);
    assert b.speed == Turbo ==> q.speed == Turbo;
    assert d.speed == Turbo ==> q.speed == Turbo || (d.alarmActive && !q.alarmActive);
  }

  lemma TurboOnlyByAlarm(s: HoodState, now: int, raw: Reading)
    requires Inv(s)
    ensures Cycle(s, now, raw).speed == Turbo ==>
              s.speed == Turbo || (Cycle(s, now, raw).alarmActive && !s.alarmActive)
  {
    if GatesOpen(s, now) {
      CycleDecides(s, now, raw);
      var q := Gated(s, now, raw);
      DecideTurboOnlyByAlarm(q, now, Measure(q));
    }
  }

  /** Turbo is left without an alarm clear: when the heat signal goes while
      the alarm is still active, the heat-loss entry into cooldown drops the
      fan to Med or Low (and an early exit may take it Off) with the alarm
      left active. */
  lemma {:induction false} DecideHeatLossLeavesTurbo(q: HoodState, now: int, m: Signals)
    requires Inv(q) && q.speed == Turbo && !q.cooldown && q.alarmActive
    requires !HeatOn(m.tDiff, m.tSlope) && !ClearPattern(m.tSlopeLong, m.rhSlope, m.rhDiff)
    ensures var r := Decide(q, now, m);
      r.speed < Turbo && r.alarmActive && r.alarmKind == q.alarmKind
  {
    var a := Interrupt(q, m);
    var b := HeatLoss(a, now, m);
    assert b.cooldown && b.cdStart == now && b.lastChange == now && (b.speed == Low || b.speed == Med);
    var d := EvaluateAlarms(b, now, m.tDiff, m.rhDiff, m.rhSlope, m.tSlopeLong, m.rhSlopeLong);
    assert d == b;
  }

  lemma HeatLossLeavesTurbo(s: HoodState, now: int, raw: Reading)
    requires Inv(s) && GatesOpen(s, now)
    requires s.speed == Turbo && !s.cooldown && s.alarmActive
    requires var m := Measure(Gated(s, now, raw));
      !HeatOn(m.tDiff, m.tSlope) && !ClearPattern(m.tSlopeLong, m.rhSlope, m.rhDiff)
    ensures var r := Cycle(s, now, raw);
      r.speed < Turbo && r.alarmActive && r.alarmKind == s.alarmKind
  {
    CycleDecides(s, now, raw);
    var q := Gated(s, now, raw);
    DecideHeatLossLeavesTurbo(q, now, Measure(q));
  }

  /** Forgotten pot: hot, heating over the long window with humidity falling,
      fan on long enough, no humidity recovery: the alarm is raised and the
      fan goes to Turbo. */
  lemma {:induction false} DecideForgottenBoilRaises(q: HoodState, now: int, m: Signals)
    requires Inv(q) && !q.alarmActive && now - q.alarmLastCleared >= RearmDelayS && Armed(q, now)
    requires BoilPattern(m.tDiff, m.tSlopeLong, m.rhSlopeLong)
    requires !ClearPattern(m.tSlopeLong, m.rhSlope, m.rhDiff)
    ensures var r := Decide(q, now, m);
      r.alarmActive && r.alarmKind == ForgottenBoil && r.alarmSince == now && r.speed == Turbo
  {
    var a := Interrupt(q, m);
    var b := HeatLoss(a, now, m);
    assert b == a;
    var d := EvaluateAlarms(b, now, m.tDiff, m.rhDiff, m.rhSlope, m.tSlopeLong, m.rhSlopeLong);
    assert d == AlarmRaise(b, now, ForgottenBoil);
  }

  lemma ForgottenBoilRaises(s: HoodState, now: int, raw: Reading)
    requires Inv(s) && GatesOpen(s, now)
    requires !s.alarmActive && now - s.alarmLastCleared >= RearmDelayS && Armed(s, now)
    requires var m := Measure(Gated(s, now, raw));
      BoilPattern(m.tDiff, m.tSlopeLong, m.rhSlopeLong) && !ClearPattern(m.tSlopeLong, m.rhSlope, m.rhDiff)
    ensures var r := Cycle(s, now, raw);
      r.alarmActive && r.alarmKind == ForgottenBoil && r.alarmSince == now && r.speed == Turbo
  {
    CycleDecides(s, now, raw);
    var q := Gated(s, now, raw);
    DecideForgottenBoilRaises(q, now, Measure(q));
  }

  /** The clear check runs right after the raise in the same cycle: when
      humidity already looks recovered, an alarm is raised and cleared at
      once, the fan ends at High and the re-arm delay starts. */
  lemma {:induction false} DecideRaisedAndCleared(q: HoodState, now: int, m: Signals)
    requires Inv(q) && q.speed < Turbo
    requires !q.alarmActive && now - q.alarmLastCleared >= RearmDelayS && Armed(q, now)
    requires BoilPattern(m.tDiff, m.tSlopeLong, m.rhSlopeLong)
          || SaucePattern(m.tDiff, m.rhDiff, m.tSlopeLong)
    requires ClearPattern(m.tSlopeLong, m.rhSlope, m.rhDiff)
    ensures var r := Decide(q, now, m);
      && !r.alarmActive && r.alarmLastCleared == now && r.speed == High
      && r.relayLog == q.relayLog + [Turbo, High]
  {
    var a := Interrupt(q, m);
    var b := HeatLoss(a, now, m);
    assert b == a;
    var kind := if BoilPattern(m.tDiff, m.tSlopeLong, m.rhSlopeLong) then ForgottenBoil else BurningSauce;
    var raised := AlarmRaise(b, now, kind);
    var d := EvaluateAlarms(b, now, m.tDiff, m.rhDiff, m.rhSlope, m.tSlopeLong, m.rhSlopeLong);
    assert d == AlarmClear(raised, now);
    assert raised.relayLog == q.relayLog + [Turbo];
    assert d.relayLog == q.relayLog + [Turbo, High] && d.lastChange == now;
  }

  lemma RaisedAndClearedInOneCycle(s: HoodState, now: int, raw: Reading)
    requires Inv(s) && GatesOpen(s, now) && s.speed < Turbo
    requires !s.alarmActive && now - s.alarmLastCleared >= RearmDelayS && Armed(s, now)
    requires var m := Measure(Gated(s, now, raw));
      && (BoilPattern(m.tDiff, m.tSlopeLong, m.rhSlopeLong) || SaucePattern(m.tDiff, m.rhDiff, m.tSlopeLong))
      && ClearPattern(m.tSlopeLong, m.rhSlope, m.rhDiff)
    ensures var r := Cycle(s, now, raw);
      && !r.alarmActive && r.alarmLastCleared == now && r.speed == High
      && r.relayLog == s.relayLog + [Turbo, High]
  {
    CycleDecides(s, now, raw);
    var q := Gated(s, now, raw);
    DecideRaisedAndCleared(q, now, Measure(q));
  }

  // ---------------------------------------------------------------------
  // Cooldown

  /** A light cooldown entry followed by the early fast-cooling exit takes
      the fan to Low and then Off within one cycle. */
  lemma {:induction false} DecideLowThenOff(q: HoodState, now: int, m: Signals)
    requires Inv(q) && !q.cooldown && q.speed >= Med && !q.alarmActive
    requires !HeatOn(m.tDiff, m.tSlope) && !HeavyEntry(m.tDiff, m.rhDiff)
    requires m.tSlopeEarly <= EarlyTempSlopeMax && Abs(m.rhSlopeEarly) <= EarlyRhAbsSlopeMax
    ensures var r := Decide(q, now, m);
      r.speed == Off && !r.cooldown && r.cdType == Light && r.relayLog == q.relayLog + [Low, Low]
  {
    var a := Interrupt(q, m);
    var b := HeatLoss(a, now, m);
    assert b.speed == Low && b.cooldown && b.lastOn == now && b.relayLog == q.relayLog + [Low];
    var d := EvaluateAlarms(b, now, m.tDiff, m.rhDiff, m.rhSlope, m.tSlopeLong, m.rhSlopeLong);
    assert d == b;
  }

  lemma LowThenOffInOneCycle(s: HoodState, now: int, raw: Reading)
    requires Inv(s) && GatesOpen(s, now)
    requires !s.cooldown && s.speed >= Med && !s.alarmActive
    requires var m := Measure(Gated(s, now, raw));
      && !HeatOn(m.tDiff, m.tSlope) && !HeavyEntry(m.tDiff, m.rhDiff)
      && m.tSlopeEarly <= EarlyTempSlopeMax && Abs(m.rhSlopeEarly) <= EarlyRhAbsSlopeMax
    ensures var r := Cycle(s, now, raw);
      r.speed == Off && !r.cooldown && r.cdType == Light && r.relayLog == s.relayLog + [Low, Low]
  {
    CycleDecides(s, now, raw);
    var q := Gated(s, now, raw);
    DecideLowThenOff(q, now, Measure(q));
  }

  /** A Low cooldown that has run for the hard cap ends with the fan Off,
      unless renewed cooking interrupts it or a hazard alarm takes over. */
  lemma {:induction false} DecideHardCap(q: HoodState, now: int, m: Signals)
    requires Inv(q) && q.cooldown && q.speed == Low && !q.alarmActive
    requires now - q.cdStart >= HardCapMin * 60
    requires !Interrupts(m.tSlope, m.rhSlope)
    requires !BoilPattern(m.tDiff, m.tSlopeLong, m.rhSlopeLong) && !SaucePattern(m.tDiff, m.rhDiff, m.tSlopeLong)
    ensures Decide(q, now, m).speed == Off && !Decide(q, now, m).cooldown
  {
    var a := Interrupt(q, m);
    var b := HeatLoss(a, now, m);
    assert b == q;
    var d := EvaluateAlarms(b, now, m.tDiff, m.rhDiff, m.rhSlope, m.tSlopeLong, m.rhSlopeLong);
    assert d == b;
  }

  lemma HardCapEndsCooldown(s: HoodState, now: int, raw: Reading)
    requires Inv(s) && GatesOpen(s, now)
    requires s.cooldown && s.speed == Low && !s.alarmActive
    requires now - s.cdStart >= HardCapMin * 60
    requires var m := Measure(Gated(s, now, raw));
      && !Interrupts(m.tSlope, m.rhSlope)
      && !BoilPattern(m.tDiff, m.tSlopeLong, m.rhSlopeLong) && !SaucePattern(m.tDiff, m.rhDiff, m.tSlopeLong)
    ensures Cycle(s, now, raw).speed == Off && !Cycle(s, now, raw).cooldown
  {
    CycleDecides(s, now, raw);
    var q := Gated(s, now, raw);
    DecideHardCap(q, now, Measure(q));
  }

  /** A cooldown flag restored at boot, with the fan Off, is never acted on
      by the cooldown logic, and it keeps the automatic start-up from running
      until renewed cooking interrupts it. */
  lemma {:induction false} DecideRestoredCooldownStalls(q: HoodState, now: int, m: Signals)
    requires Inv(q) && q.cooldown && q.speed == Off && !q.alarmActive && q.lastOn == 0
    requires !Interrupts(m.tSlope, m.rhSlope)
    ensures Decide(q, now, m).speed == Off && Decide(q, now, m).cooldown
  {
    var a := Interrupt(q, m);
    var b := HeatLoss(a, now, m);
    assert b == q;
    var d := EvaluateAlarms(b, now, m.tDiff, m.rhDiff, m.rhSlope, m.tSlopeLong, m.rhSlopeLong);
    assert d == b;
  }

  lemma RestoredCooldownAtOffStalls(s: HoodState, now: int, raw: Reading)
    requires Inv(s) && s.cooldown && s.speed == Off && !s.alarmActive && s.lastOn == 0
    requires var m := Measure(Gated(s, now, raw)); !Interrupts(m.tSlope, m.rhSlope)
    ensures Cycle(s, now, raw).speed == Off && Cycle(s, now, raw).cooldown
  {
    if GatesOpen(s, now) {
      CycleDecides(s, now, raw);
      var q := Gated(s, now, raw);
      DecideRestoredCooldownStalls(q, now, Measure(q));
    } else if s.manualOverride && !OverrideExpired(s, now) {
      OverrideHolds(s, now, raw);
    } else {
      LockoutHolds(s, now, raw);
    }
  }

  // ---------------------------------------------------------------------
  // Manual override

  /** While a manual override is fresh, cycles change nothing but the
      smoothed values and the history. */
  lemma {:induction false} OverrideRun(s: HoodState, polls: seq<Poll>)
    requires Inv(s) && s.manualOverride
    requires forall i :: 0 <= i < |polls| ==> !OverrideExpired(s, polls[i].now)
    ensures Run(s, polls).(tInE := s.tInE, rhInE := s.rhInE, tRoomE := s.tRoomE, rhRoomE := s.rhRoomE,
                           hist := s.hist) == s
    decreases |polls|
  {
    if polls != [] {
      var p := polls[0];
      OverrideHolds(s, p.now, p.raw);
      var c := Cycle(s, p.now, p.raw);
      assert c.manualOverride && c.manualStartTs == s.manualStartTs;
      forall i | 0 <= i < |polls[1..]| ensures !OverrideExpired(c, polls[1..][i].now) {
        assert polls[1..][i] == polls[i + 1];
      }
      OverrideRun(c, polls[1..]);
    }
  }

  /** After a manual selection of a running speed, every cycle within the
      override timeout leaves everything but the smoothed values and the
      history as the slider set it, whatever the readings. */
  lemma ManualSelectionHolds(s: HoodState, v: int, t0: int, polls: seq<Poll>)
    requires Inv(s) && Low <= v <= Turbo && v != s.speed
    requires forall i :: 0 <= i < |polls| ==> polls[i].now < t0 + ManualTimeoutMin * 60
    ensures Inv(Slider(s, v, t0))
    ensures var u := Slider(s, v, t0);
      Run(u, polls).(tInE := u.tInE, rhInE := u.rhInE, tRoomE := u.tRoomE, rhRoomE := u.rhRoomE,
                     hist := u.hist) == u
  {
    var u := Slider(s, v, t0);
    OverrideRun(u, polls);
  }

  /** Once the timeout has passed, the next cycle clears the override. */
  lemma ManualSelectionExpires(s: HoodState, v: int, t0: int, now: int, raw: Reading)
    requires Inv(s) && Low <= v <= Turbo && v != s.speed
    requires now >= t0 + ManualTimeoutMin * 60
    ensures Inv(Slider(s, v, t0))
    ensures !Cycle(Slider(s, v, t0), now, raw).manualOverride
  {
    var u := Slider(s, v, t0);
    if GatesOpen(u, now) {
      CycleDecides(u, now, raw);
    }
  }

  /** Repeating a slider value is ignored. */
  lemma SliderIdempotent(s: HoodState, v: int, t1: int, t2: int)
    requires Off <= v <= Turbo
    ensures Slider(Slider(s, v, t1), v, t2) == Slider(s, v, t1)
  {
  }

  // ---------------------------------------------------------------------
  // Persistence

  /** Restoring a fresh saved blob gives back exactly the saved fields. */
  lemma RestoreSaved(s: HoodState, t: HoodState, now: int)
    requires now - s.manualStartTs < RestoreMaxAgeS
    ensures Save(Restore(t, Some(Save(s)), now)) == Save(s)
    ensures Restore(s, Some(Save(s)), now) == s
  {
  }
}

=== FILE: history.dfy ===
/** The rolling sample history: exponential smoothing of the four readings
    and the bounded, oldest-first-evicted buffer they are appended to. */
module History {
  import opened Config

  datatype Option<T> = None | Some(value: T)

  /** The four raw readings of one poll. The decision engine only runs when
      all four are present and numeric, so they are plain numbers here. */
  datatype Reading = Reading(tIn: real, rhIn: real, tRoom: real, rhRoom: real)

  /** One history entry: a timestamp and the four smoothed values. A value
      is absent only when the smoothed state it was copied from was unset. */
  datatype Sample = Sample(ts: int, tIn: Option<real>, rhIn: Option<real>,
                           tRoom: Option<real>, rhRoom: Option<real>)

  /** The sample keys a slope can be taken over. */
  datatype Field = Tin | Rin | Tr | Rr

  function Value(s: Sample, f: Field): Option<real>
  {
    match f
    case Tin => s.tIn
    case Rin => s.rhIn
    case Tr => s.tRoom
    case Rr => s.rhRoom
  }

  function Abs(x: real): real { if x < 0.0 then -x else x }

  function Min(x: real, y: real): real { if x <= y then x else y }

  function Max(x: real, y: real): real { if x <= y then y else x }

  /** Exponential moving average step: the raw value when there is no
      previous smoothed value, otherwise a blend that moves the previous
      value a fixed fraction (alpha) of the way towards the raw value. */
  function Ema(prev: Option<real>, x: real): (r: real)
    ensures prev.None? ==> r == x
    ensures prev.Some? ==> r - x == (1.0 - EmaAlpha) * (prev.value - x)
    ensures prev.Some? ==> Min(prev.value, x) <= r <= Max(prev.value, x)
  {
    if prev.None? then x else EmaAlpha * x + (1.0 - EmaAlpha) * prev.value
  }

  /** The smoothed value after the same raw value `x` has been fed `n` times. */
  function EmaRepeat(prev: Option<real>, x: real, n: nat): Option<real>
  {
    if n == 0 then prev else Some(Ema(EmaRepeat(prev, x, n - 1), x))
  }

  /** `d` scaled by the smoothing retention factor 1 - alpha, `n` times. */
  function Shrunk(d: real, n: nat): real
  {
    if n == 0 then d else (1.0 - EmaAlpha) * Shrunk(d, n - 1)
  }

  /** Constant input: after `n` steps the distance to the input is the
      starting distance shrunk `n` times, so it never grows and keeps its
      sign. */
  lemma {:induction false} EmaConverges(prev: real, x: real, n: nat)
    ensures EmaRepeat(Some(prev), x, n).Some?
    ensures EmaRepeat(Some(prev), x, n).value - x == Shrunk(prev - x, n)
    ensures Abs(EmaRepeat(Some(prev), x, n).value - x) <= Abs(prev - x)
    ensures prev >= x ==> EmaRepeat(Some(prev), x, n).value >= x
    ensures prev <= x ==> EmaRepeat(Some(prev), x, n).value <= x
  {
    if n > 0 {
      EmaConverges(prev, x, n - 1);
      var v := EmaRepeat(Some(prev), x, n - 1).value;
      assert EmaRepeat(Some(prev), x, n).value == Ema(Some(v), x);
    }
  }

  /** The shrinking is at least as fast as a harmonic bound: after `n`
      steps the distance times 1 + alpha * n is at most the starting one. */
  lemma {:induction false} ShrunkBound(d: real, n: nat)
    ensures Abs(Shrunk(d, n)) * (1.0 + EmaAlpha * n as real) <= Abs(d)
  {
    if n > 0 {
      ShrunkBound(d, n - 1);
      var p := Abs(Shrunk(d, n - 1));
      var k := (n - 1) as real;
      var grow := (1.0 - EmaAlpha) * (1.0 + EmaAlpha * (k + 1.0));
      assert Abs(Shrunk(d, n)) == (1.0 - EmaAlpha) * p;
      assert p * (1.0 + EmaAlpha * k) <= Abs(d);
      ScaleLe(p, grow, 1.0 + EmaAlpha * k);
      assert Abs(Shrunk(d, n)) * (1.0 + EmaAlpha * n as real) == p * grow;
    }
  }

  lemma ScaleLe(p: real, x: real, y: real)
    requires p >= 0.0 && x <= y
    ensures p * x <= p * y
  {
    assert p * y - p * x == p * (y - x);
  }

  /** Constant input: once `n` steps are enough for alpha * eps per step to
      cover the starting distance, the smoothed value is within `eps` of
      the input. */
  lemma EmaWithin(prev: real, x: real, eps: real, n: nat)
    requires eps > 0.0 && (n as real) * EmaAlpha * eps >= Abs(prev - x)
    ensures Abs(EmaRepeat(Some(prev), x, n).value - x) <= eps
  {
    EmaConverges(prev, x, n);
    ShrunkBound(prev - x, n);
    var q := Abs(Shrunk(prev - x, n));
    var c := 1.0 + EmaAlpha * n as real;
    assert (q - eps) * c <= 0.0;
  }

  /** Without a previous value the first step lands on the input exactly,
      and a constant input then stays put. */
  lemma {:induction false} EmaFirstExact(x: real, n: nat)
    requires n > 0
    ensures EmaRepeat(None, x, n) == Some(x)
  {
    if n > 1 {
      EmaFirstExact(x, n - 1);
    }
  }

  /** The retained window: the newest MaxHist entries, in their order. */
  function Keep<T>(h: seq<T>): (r: seq<T>)
    ensures |r| == if |h| <= MaxHist then |h| else MaxHist
    ensures r == h[|h| - |r|..]
  {
    if |h| <= MaxHist then h else h[|h| - MaxHist..]
  }

  /** Append one entry and trim the history back to MaxHist entries. */
  function Push<T>(h: seq<T>, x: T): (r: seq<T>)
    requires |h| <= MaxHist
    ensures |r| <= MaxHist && r != [] && r[|r| - 1] == x
    ensures |h| < MaxHist ==> r == h + [x]
    ensures |h| == MaxHist ==> r == h[1..] + [x]
  {
    Keep(h + [x])
  }

  /** The history after recording each of `xs` in turn. */
  function PushAll<T>(h: seq<T>, xs: seq<T>): (r: seq<T>)
    requires |h| <= MaxHist
    ensures |r| <= MaxHist
    decreases |xs|
  {
    if xs == [] then h else PushAll(Push(h, xs[0]), xs[1..])
  }

  lemma KeepKeep<T>(u: seq<T>, v: seq<T>)
    ensures Keep(Keep(u) + v) == Keep(u + v)
  {
    if |u| > MaxHist {
      var k := |u| - MaxHist;
      assert Keep(u) == u[k..];
      DropThenAppend(u, v, k);
      KeepSuffix(u + v, k);
    }
  }

  lemma DropThenAppend<T>(u: seq<T>, v: seq<T>, k: nat)
    requires k <= |u|
    ensures u[k..] + v == (u + v)[k..]
  {
  }

  /** Dropping a prefix that leaves at least MaxHist entries does not change
      what is kept. */
  lemma KeepSuffix<T>(w: seq<T>, k: nat)
    requires k <= |w| && |w| - k >= MaxHist
    ensures Keep(w[k..]) == Keep(w)
  {
    var t := w[k..];
    assert t[|t| - MaxHist..] == w[|w| - MaxHist..];
  }

  /** However many samples are recorded, the history holds exactly the
      newest MaxHist of everything recorded, oldest first. */
  lemma {:induction false} PushAllKeepsNewest<T>(h: seq<T>, xs: seq<T>)
    requires |h| <= MaxHist
    ensures PushAll(h, xs) == Keep(h + xs)
    decreases |xs|
  {
    if xs == [] {
      assert h + xs == h;
    } else {
      PushAllKeepsNewest(Push(h, xs[0]), xs[1..]);
      PushFirst(h, xs);
    }
  }

  /** Recording the first of `xs` and keeping the newest entries of the
      rest is keeping the newest entries of all of them. */
  lemma PushFirst<T>(h: seq<T>, xs: seq<T>)
    requires |h| <= MaxHist && xs != []
    ensures Keep(Push(h, xs[0]) + xs[1..]) == Keep(h + xs)
  {
    assert Push(h, xs[0]) == Keep(h + [xs[0]]);
    KeepKeep(h + [xs[0]], xs[1..]);
    assert h + [xs[0]] + xs[1..] == h + xs;
  }

  /** Timestamps never decrease along the history. */
  ghost predicate Chronological(h: seq<Sample>)
  {
    forall i, j :: 0 <= i < j < |h| ==> h[i].ts <= h[j].ts
  }

  /** Recording a sample no older than the newest one keeps the history
      in chronological order. */
  lemma PushChronological(h: seq<Sample>, x: Sample)
    requires |h| <= MaxHist && Chronological(h)
    requires h == [] || h[|h| - 1].ts <= x.ts
    ensures Chronological(Push(h, x))
  {
    var g := h + [x];
    AppendChronological(h, x);
    SuffixChronological(g, |g| - |Push(h, x)|);
  }

  lemma AppendChronological(h: seq<Sample>, x: Sample)
    requires Chronological(h)
    requires h == [] || h[|h| - 1].ts <= x.ts
    ensures Chronological(h + [x])
  {
    var g := h + [x];
    forall i, j | 0 <= i < j < |g| ensures g[i].ts <= g[j].ts {
      if j == |h| && i < |h| - 1 {
        assert h[i].ts <= h[|h| - 1].ts;
      }
    }
  }

  lemma SuffixChronological(g: seq<Sample>, k: nat)
    requires k <= |g| && Chronological(g)
    ensures Chronological(g[k..])
  {
    var r := g[k..];
    forall i, j | 0 <= i < j < |r| ensures r[i].ts <= r[j].ts {
      assert r[i] == g[k + i] && r[j] == g[k + j];
    }
  }
}

=== FILE: slope.dfy ===
/** Rate of change of one smoothed field over a trailing time window. */
module SlopeCalc {
  import opened Config
  import opened History

  /** Sample `k` is at least `sec` seconds older than the newest sample. */
  predicate Reaches(h: seq<Sample>, sec: int, k: int)
    requires 0 <= k < |h|
  {
    h[|h| - 1].ts - h[k].ts >= sec
  }

  /** Scan backwards from index `i`: the first index that reaches back `sec`
      seconds, or index 0 when none of 0..i does. */
  function ScanBack(h: seq<Sample>, sec: int, i: nat): (k: nat)
    requires i < |h|
    ensures k <= i
    ensures (Reaches(h, sec, k) && forall j :: k < j <= i ==> !Reaches(h, sec, j))
         || (k == 0 && forall j :: 0 <= j <= i ==> !Reaches(h, sec, j))
  {
    if Reaches(h, sec, i) || i == 0 then i else ScanBack(h, sec, i - 1)
  }

  /** Index of the window's start sample: the newest sample (other than the
      last) that is at least `sec` older than the last one, or the oldest
      sample when no sample is that old. */
  function StartIndex(h: seq<Sample>, sec: int): (k: nat)
    requires |h| >= 2
    ensures k <= |h| - 2
    ensures (Reaches(h, sec, k) && forall j :: k < j <= |h| - 2 ==> !Reaches(h, sec, j))
         || (k == 0 && forall j :: 0 <= j <= |h| - 2 ==> !Reaches(h, sec, j))
  {
    ScanBack(h, sec, |h| - 2)
  }

  /** Minutes elapsed between two timestamps. */
  function Minutes(fromTs: int, toTs: int): real
  {
    (toTs - fromTs) as real / 60.0
  }

  /** Change of field `f` per minute between the window's start sample and
      the newest sample; 0 ("no signal yet") when there are fewer than two
      samples, when no time has elapsed between the two, or when either
      value is missing. */
  function SlopeOf(h: seq<Sample>, f: Field, sec: int): (r: real)
    ensures |h| < 2 ==> r == 0.0
    ensures |h| >= 2 && h[StartIndex(h, sec)].ts >= h[|h| - 1].ts ==> r == 0.0
    ensures |h| >= 2 && (Value(h[|h| - 1], f).None? || Value(h[StartIndex(h, sec)], f).None?) ==> r == 0.0
    ensures |h| >= 2 && h[StartIndex(h, sec)].ts < h[|h| - 1].ts
            && Value(h[|h| - 1], f).Some? && Value(h[StartIndex(h, sec)], f).Some? ==>
              r * Minutes(h[StartIndex(h, sec)].ts, h[|h| - 1].ts)
                == Value(h[|h| - 1], f).value - Value(h[StartIndex(h, sec)], f).value
  {
    if |h| < 2 then 0.0
    else
      var e := h[|h| - 1];
      var s := h[StartIndex(h, sec)];
      var dtm := Minutes(s.ts, e.ts);
      if dtm <= 0.0 then 0.0
      else if Value(e, f).None? || Value(s, f).None? then 0.0
      else (Value(e, f).value - Value(s, f).value) / dtm
  }

  /** Field `f` grows at `k` units per minute along the whole history. */
  ghost predicate LinearIn(h: seq<Sample>, f: Field, c: real, k: real)
  {
    forall i :: 0 <= i < |h| ==> Value(h[i], f) == Some(c + k * Minutes(0, h[i].ts))
  }

  lemma LinearAt(h: seq<Sample>, f: Field, c: real, k: real, i: int)
    requires LinearIn(h, f, c, k) && 0 <= i < |h|
    ensures Value(h[i], f).Some?
    ensures Value(h[i], f).value == c + k * Minutes(0, h[i].ts)
  {
  }

  lemma RateOverWindow(c: real, k: real, ts0: int, ts1: int)
    requires ts0 < ts1
    ensures ((c + k * Minutes(0, ts1)) - (c + k * Minutes(0, ts0))) / Minutes(ts0, ts1) == k
  {
    var m0, m1, d := Minutes(0, ts0), Minutes(0, ts1), Minutes(ts0, ts1);
    assert m1 - m0 == d;
    assert (c + k * m1) - (c + k * m0) == k * d;
    assert d > 0.0;
  }

  /** When the field grows linearly in time, the slope is exactly its rate,
      unless the window holds no elapsed time. */
  lemma SlopeOfLinear(h: seq<Sample>, f: Field, sec: int, c: real, k: real)
    requires |h| >= 2 && LinearIn(h, f, c, k)
    requires h[StartIndex(h, sec)].ts < h[|h| - 1].ts
    ensures SlopeOf(h, f, sec) == k
  {
    var ie, ist := |h| - 1, StartIndex(h, sec);
    LinearAt(h, f, c, k, ie);
    LinearAt(h, f, c, k, ist);
    RateOverWindow(c, k, h[ist].ts, h[ie].ts);
  }

  /** With a non-decreasing field the slope is never negative. */
  lemma SlopeOfMonotone(h: seq<Sample>, f: Field, sec: int)
    requires forall i :: 0 <= i < |h| ==> Value(h[i], f).Some?
    requires forall i, j :: 0 <= i < j < |h| ==> Value(h[i], f).value <= Value(h[j], f).value
    ensures SlopeOf(h, f, sec) >= 0.0
  {
    if |h| >= 2 {
      var k := StartIndex(h, sec);
      assert Value(h[k], f).value <= Value(h[|h| - 1], f).value;
    }
  }
}
